=== FILE: README.md ===
# Village scene prediction kernel, in Dafny

This project models the client-side prediction kernel of the platformer's village
scene. It covers the Phaser scene `Village` (the scene the game registers,
`src/scenes/Village.ts`) and its older sibling `VillageOld.ts`. Both share the
same fixed tick and collision test. The older file also keeps monster and loot
registries, name labels, and a different rule for mirroring remote players.
The datatype `Entities.Variant` (`Current` / `Legacy`) selects which file's
behaviour an operation follows wherever the two differ.

Modules, one per concern of the scene:

- `Optional`: the `Option` type.
- `Geometry` (`geometry.dfy`): `checkCollision`. The avatar's 32 x 32 box is
  checked against centred obstacle rectangles with strict inequalities. A
  one-way platform blocks only an avatar that is not rising and whose previous
  bottom edge was at or above the platform's top.
- `Physics` (`physics.dfy`): the local avatar's step inside `fixedTick`:
  - horizontal move of 2 units (left wins over right, no move while attacking)
    with a first-hit revert;
  - jump to -12 when grounded;
  - gravity of +0.5;
  - first-hit vertical resolution, which snaps onto the top or puts the avatar
    back at its previous height.
- `Entities`: render objects (`Sprite`, `Coin`) and the fields of the
  authoritative player, monster and loot state that the handlers read.
- `Animation`: the priority chains that pick animation keys and mirror flags
  for remote players, monsters and the local avatar.
- `Reconcile`: the per-tick `Phaser.Math.Linear` blend toward the
  authoritative position (0.4 on x, 0.6 on y) and the prune policy of each
  registry.
- `Registry`: add / change / remove handlers of the keyed registries: players
  by user name with their name labels, monsters and loot by index.
- `Scene` (`scene.dfy`): the whole scene state and `FixedTick`:
  - count the tick, stamp and send the input payload, request loot collection;
  - step the avatar, reconcile the registries, pick the avatar's animation.

  It also holds the per-frame accumulator `Update`, which runs one fixed tick
  per whole 1000/60 ms and carries the remainder, and `Apply`, which
  dispatches server events to the registries.

Messages sent to the room are modelled as an output sequence (`Scene.outbox`).
The input payload is sent only while the connection's `isOpen` flag is set; the
loot-collection request is sent whenever its key is held, open or not
(`Scene.ClosedConnectionSendsOnlyCollect`). The accumulated frame time
(`elapsedTime`) is passed to `Update` and returned by it, not stored in the
scene record. Render objects are values with an identity token, an `alive`
flag and a `hasData` flag. A destroyed render object is one whose `alive` flag is
false. Every handler that destroys a render object also deletes its entry, so every
stored entry is alive in every reachable scene (`Scene.InitialStoredAlive`,
`Scene.ApplyKeepsStoredAlive`, `Scene.FixedTickKeepsStoredAlive`). The flag is kept
because the handlers and the reconcile passes test it, but their branches for a
destroyed object are unreachable in the model. `hasData` says whether the object's data store exists. The engine creates
the store on the first stored value. For a remote player or a coin that is the
first change event. For the local player's object it is the tick itself, which
stores the previous y before the registries are reconciled. The reconcile passes
delete a player or coin entry that is destroyed or has no store yet. A remote
player that joins and is reconciled before its first change is therefore dropped
from the registry (`Scene.RemotePlayerNeedsChangeBeforeTick`).

A removal event for the local player's own name destroys its sprite and deletes
its entry, but the scene keeps the sprite as its current player and goes on
stepping it every tick. The model records this with the `inScene` flag of
`Scene.Local`. Destroying the sprite drops its data store, so the next tick reads
a velocity of 0 and no grounded or attacking flag. The animation is then never
chosen again, because the animation step checks that the sprite is still in the
scene (`Scene.LocalRemovalFreezesAnimation`).

Two consequences of the code that the model states explicitly:

- An avatar at (100, 200) over a 32 x 16 regular obstacle centred at (100, 216)
  is already embedded in it. The obstacle's top edge is 216 - 8 = 208, and the
  avatar's bottom edge is 216. On every idle tick the avatar falls into the
  obstacle, does not count as landing (its previous bottom edge is below the
  top), and is put back at y = 200 with zero velocity and the grounded flag
  cleared. `Physics.EmbeddedScenario` proves this for any number of ticks.
- The registered scene never stores a registry `playerName`. Its
  interpolation therefore skips no player by name: `Scene.playerName` is
  optional, and nothing sets it in that scene.

## Model

| member | source | states |
|---|---|---|
| Geometry.CollidesShiftInvariant | src/scenes/Village.ts:509-540 | moving the avatar (its position and its stored previous y) and the obstacle by the same offset never changes whether they collide |
| Geometry.TouchingEdgesDoNotCollide | src/scenes/Village.ts:489-540 | boxes that only share an edge never collide |
| Geometry.OneWayHitImpliesRegularHit | src/scenes/Village.ts:513-539 | a hit on a one-way platform is also a hit on the same rectangle treated as a regular obstacle |
| Geometry.NoOneWayHitWhileRising | src/scenes/Village.ts:518-530 | an avatar with negative vertical velocity never collides with a one-way platform |
| Geometry.OneWayPassesFromBelow | src/scenes/Village.ts:518-530 | an avatar whose previous bottom edge was below a one-way platform's top passes through it |
| Geometry.OneWayInertAtStoredPosition | src/scenes/Village.ts:341-383 | while the stored previous y equals the current y, as in the horizontal pass, no one-way platform can block |
| Geometry.OverlapIffSharedInterior | src/scenes/Village.ts:534-539 | for boxes of positive size, the strict overlap test holds exactly when some point lies strictly inside both boxes |
| Geometry.AsWrittenAgreesUnlessPrevYZero | src/scenes/VillageOld.ts:755-757 | the `prevY \|\| y` fallback changes the collision outcome only when the stored previous y is exactly 0 |
| Geometry.ZeroPrevYFallsThroughOneWay | src/scenes/VillageOld.ts:755-757 | concrete input where the fallback lets a falling avatar pass through a one-way platform it should land on, while the same fall one unit lower lands as written |
| Physics.FirstHit | src/scenes/Village.ts:358-363 | the scan returns the index of the first colliding obstacle in list order, or nothing exactly when no obstacle collides |
| Physics.HorizontalPass | src/scenes/Village.ts:344-383 | not attacking: left is tried first, then right; x moves by 2 exactly when no obstacle collides at the moved position and stays put exactly when one does; attacking or no key: x unchanged |
| Physics.HorizontalOrderIndependent | src/scenes/Village.ts:358-381 | the horizontal outcome depends only on the multiset of obstacles, not their order |
| Physics.Jump | src/scenes/Village.ts:385-389 | velocity becomes -12 and grounded is cleared only when jump is held, the avatar is grounded and not attacking; otherwise nothing changes |
| Physics.FreeFallStep | src/scenes/Village.ts:385-418 | an idle tick with no obstacle keeps x, adds 0.5 to the velocity, moves y by the new velocity and clears the grounded flag |
| Physics.FreeFall | src/scenes/Village.ts:385-418 | with no obstacle, n idle ticks add 0.5 n to the velocity and move y by n times the starting velocity plus 0.25 n (n + 1) |
| Physics.JumpThenGravity | src/scenes/Village.ts:386-396 | before vertical resolution, velocity is (-12 if a jump starts, else the stored velocity) + 0.5, and y moves by it |
| Physics.VerticalPass | src/scenes/Village.ts:398-418 | only the first colliding obstacle applies: a landing snaps to top - 16 with zero velocity and grounded; any other hit restores the previous y with zero velocity, not grounded; no hit clears grounded |
| Physics.Step | src/scenes/Village.ts:336-418 | one tick stores the previous y, keeps the attack flag, moves x by 0 or 2 and, when grounded, rests on some obstacle it landed on |
| Physics.GroundedIffLanded | src/scenes/Village.ts:399-418 | after a tick the avatar is grounded exactly when the first obstacle hit is one it lands on |
| Physics.LandingSnapsOntoTop | src/scenes/Village.ts:401-409 | a first hit on an obstacle the avatar lands on leaves it at that top - 16, velocity 0, grounded |
| Physics.RestingIsFixedPoint | src/scenes/Village.ts:393-418 | an idle avatar at rest on the top of an obstacle it overlaps horizontally keeps its x, y and zero velocity and stays grounded |
| Physics.EmbeddedAvatarHeldInPlace | src/scenes/Village.ts:410-414 | an idle avatar already inside a regular obstacle is put back at its height, velocity 0, not grounded |
| Physics.EmbeddedScenario | src/scenes/Village.ts:399-418 | the avatar at (100, 200) over the obstacle centred at (100, 216) stays at y = 200, velocity 0, not grounded, for every number of idle ticks |
| Reconcile.Blend | src/scenes/Village.ts:440-444 | with both server coordinates stored, the gap to the server position shrinks to 0.6 of itself on x and 0.4 on y; otherwise the sprite is untouched; nothing but the position changes |
| Reconcile.BlendStaysBetween | src/scenes/Village.ts:442-443 | a blend never overshoots: each coordinate stays between its old value and the target |
| Reconcile.BlendTimesKeepsTarget | src/scenes/Village.ts:440-444 | blending never alters the stored server position |
| Reconcile.ResidualAfterTicks | src/scenes/Village.ts:428-444 | after n ticks toward a fixed target the gap is 0.6^n of the original on x and 0.4^n on y |
| Reconcile.ResidualFactorShrinks | src/scenes/Village.ts:442-443 | the residual factors are non-negative and never grow from one tick to the next |
| Reconcile.ReconcilePlayers | src/scenes/Village.ts:428-445 | an entry survives exactly when its render object is alive and has a data store, or it is the skipped own name; survivors other than the own name are blended |
| Reconcile.ReconcileMonsters | src/scenes/VillageOld.ts:673-684 | the key set is unchanged; live entries with a data store are blended, the others are left alone |
| Reconcile.ReconcileLoot | src/scenes/VillageOld.ts:686-698 | an entry survives exactly when its render object is alive and has a data store, and survivors are blended |
| Reconcile.ReconcileOnlyPrunesUnbacked | src/scenes/VillageOld.ts:654-698 | reconciliation never adds an entry, keeps every live entry with a data store (and the skipped own name), never deletes a monster, and a second pass deletes nothing more |
| Animation.RemotePlayerAnim | src/scenes/Village.ts:203-220 | attack exactly when attacking; jump exactly when not attacking and airborne; run exactly when grounded and the new x differs from the rendered x by more than 0.1; idle otherwise |
| Animation.LocalAnim | src/scenes/Village.ts:475-486 | attack, then jump when airborne, then run while left or right is held (mirrored exactly when left is held), else idle; the mirror flag changes only on the run branch |
| Animation.Gait | src/scenes/VillageOld.ts:396-402 | run exactly when \|velocityX\| > 2, walk exactly when 0 < \|velocityX\| <= 2, idle exactly when velocityX = 0 |
| Animation.MonsterAnim | src/scenes/VillageOld.ts:379-403 | a hit plays vanish; otherwise a running vanish is left alone, else the gait plays |
| Animation.MonsterAnimIsBoar | src/scenes/VillageOld.ts:379-403 | every monster playback a change produces is one of the four boar animations |
| Animation.MonsterAnimIgnoresHistory | src/scenes/VillageOld.ts:379-403 | outside a running vanish, the hit flag and speed alone decide the playback |
| Entities.NewSprite | src/scenes/Village.ts:176-182 | a new render object sits at the given position, alive, unmirrored, with the given playback, no data store and no server position |
| Registry.AddPlayer | src/scenes/VillageOld.ts:182-202 | the render object is stored under the user name, replacing any earlier one, other entries unchanged; the legacy scene also adds a name label |
| Registry.RemovePlayer | src/scenes/VillageOld.ts:299-311 | the entry and the name label are gone, every other key keeps its entry, and an unknown name changes nothing |
| Registry.AddThenRemovePlayer | src/scenes/VillageOld.ts:182-202 | removing a player who was just added under an unused name restores the render objects and the name labels |
| Registry.ChangeRemotePlayer | src/scenes/VillageOld.ts:220-246 | the server position is stored, creating the data store, without moving the sprite; a live sprite also gets the remote animation, chosen against its rendered x, and is mirrored exactly when velocityX < 0 (registered scene, Village.ts lines 222-226) or exactly when it faces left (legacy scene); other entries unchanged |
| Registry.AddMonster | src/scenes/VillageOld.ts:364-367 | a fresh render object is stored at the index: at the monster's position, under the new token, alive, unmirrored, with no animation, no data store and no server position; other entries unchanged |
| Registry.RemoveMonster | src/scenes/VillageOld.ts:410-416 | the index is gone, every other key keeps its entry, and an absent index changes nothing |
| Registry.ChangeMonster | src/scenes/VillageOld.ts:369-406 | a live monster gets the server position and a data store, the hit/gait playback, and is mirrored exactly when velocityX > 0; a destroyed or missing one and every other entry is unchanged |
| Registry.FinishVanish | src/scenes/VillageOld.ts:381-391 | the vanish completion switches only that live monster's playback; a destroyed or missing monster and every other entry is unchanged |
| Registry.HitThenVanishSettlesOnGait | src/scenes/VillageOld.ts:378-391 | a hit followed by the completion of its vanish leaves a live monster playing the gait for its speed at completion, whatever it showed before |
| Registry.RemoveMonsterIdempotent | src/scenes/VillageOld.ts:410-416 | removing a monster twice is removing it once |
| Registry.AddThenRemoveMonster | src/scenes/VillageOld.ts:364-416 | removing a monster just added at a free index restores the registry |
| Registry.AddLoot | src/scenes/VillageOld.ts:441-449 | a fresh render object is stored at the index: at the item's position, under the new token, alive, unmirrored, untinted, not fading, with no data store and no server position; a coin plays the spin animation and any other item has no animation |
| Registry.FreshLootPrunedUntilChanged | src/scenes/VillageOld.ts:441-449 | a coin that was only added has no data store, so the next reconcile pass deletes it; after one change event it survives |
| Registry.AddRemoveFadeRestoresLoot | src/scenes/VillageOld.ts:484-502 | adding a coin at a free index, removing it and completing its fade leaves the registry as it was |
| Registry.ChangeLoot | src/scenes/VillageOld.ts:467-481 | an index without a render object is ignored; otherwise the server position is stored, creating the data store, and the coin is tinted once being collected |
| Registry.RemoveLoot | src/scenes/VillageOld.ts:484-502 | removal keeps the entry and only starts its fade-out; an absent index changes nothing |
| Registry.FadeFinishedAsWritten | src/scenes/VillageOld.ts:493-499 | the fade completion as written deletes whatever entry sits at the index |
| Registry.FadeFinished | src/scenes/VillageOld.ts:493-499 | the corrected fade completion deletes the entry only while it is still the object that faded |
| Registry.LootRemovalIsDeferred | src/scenes/VillageOld.ts:484-502 | after removal the coin is still registered and fading, and its own completion deletes exactly its index |
| Registry.FadeAfterIndexReuse | src/scenes/VillageOld.ts:484-502 | concrete input: a coin re-added at an index while the old coin fades is deleted by the old fade as written, kept by the corrected one |
| Registry.ReusedIndexSurvivesOldFade | src/scenes/VillageOld.ts:441-502 | an entry added under a new identity survives the completion of the old one's fade |
| Scene.Initial | src/scenes/Village.ts:14-38 | a new scene has no avatar, tick 0, a payload with no key held, no tick and no user name, and empty obstacles, registries, name labels and outbox |
| Scene.TickMessages | src/scenes/VillageOld.ts:558-652 | a tick sends the input payload first, only when the connection is open, then a collect request whenever the key is held |
| Scene.SendInput | src/scenes/Village.ts:318-335 | the counter advances by one, the payload carries the keys, the attack flag and the new tick number, and the tick's messages are appended; nothing else changes |
| Scene.Simulate | src/scenes/Village.ts:336-486 | the avatar exists afterwards with the same attack flag and the same in-scene flag; a destroyed sprite keeps its animation and mirror flag; only the avatar and the three registries change |
| Scene.FixedTick | src/scenes/Village.ts:312-486 | inert without avatar or room; otherwise the tick counts, stamps, sends and keeps connection, obstacles, labels and names |
| Scene.TickSimulates | src/scenes/Village.ts:336-486 | an active tick steps the avatar with the held keys, picks its animation from the stepped state only while its sprite is in the scene, stores the previous y in the local player's entry, and then reconciles every registry |
| Scene.FixedTickFollowsLink | src/scenes/Village.ts:317-335 | an active tick keeps the scene active and acts on its room-facing part (connection, attack flag, counter, payload, outbox) as one send step: count, stamp the keys and the new number, append the messages |
| Scene.RunFollowsLink | src/scenes/Village.ts:299-335 | n active ticks act on the room-facing part as n send steps |
| Scene.LinkCounts | src/scenes/Village.ts:317-330 | n send steps advance the counter by n, keep the connection and attack flags, and leave the payload with the keys and the last tick's number |
| Scene.LinkOutbox | src/scenes/Village.ts:332-335 | n send steps append each tick's messages, in tick order |
| Scene.LinkRunSends | src/scenes/Village.ts:317-335 | a scene whose room-facing part went through n send steps has sent exactly what n ticks send |
| Scene.RunSends | src/scenes/Village.ts:306-335 | n active ticks advance the counter by n, stamp the last number, keep connection and attack flag, and send exactly the messages of ticks 1..n in order |
| Scene.StorePrevY | src/scenes/Village.ts:341-342 | the tick gives the local player's entry a data store and changes nothing else in the player registry |
| Scene.RemotePlayerNeedsChangeBeforeTick | src/scenes/Village.ts:428-437 | a remote player reconciled before its first change is deleted from the registry, one changed first is kept, and the local player's live entry is kept |
| Scene.Update | src/scenes/Village.ts:299-310 | with no avatar, nothing runs and the accumulated time is unchanged; otherwise exactly floor((elapsed + delta) / step) ticks run (none below one step), the remainder is carried and lies in [0, step) for a non-negative total, and the result is that many fixed ticks |
| Scene.RunWithoutRoomIsInert | src/scenes/Village.ts:312-315 | without a room, any number of ticks leaves the scene unchanged |
| Scene.ClosedConnectionSendsOnlyCollect | src/scenes/Village.ts:332-335 | with the connection closed, a run sends only collect requests |
| Scene.InitialStoredAlive | src/scenes/VillageOld.ts:655-698 | the scene starts with no destroyed render object registered |
| Scene.ApplyKeepsStoredAlive | src/scenes/VillageOld.ts:182-502 | no event leaves a destroyed render object registered: adding stores a live object, changes keep the flag, removal destroys and deletes together |
| Scene.PlayerEventKeepsStoredAlive | src/scenes/VillageOld.ts:299-311 | obstacle and player events leave every registered render object alive |
| Scene.MonsterEventKeepsStoredAlive | src/scenes/VillageOld.ts:364-416 | monster events leave every registered render object alive |
| Scene.LootEventKeepsStoredAlive | src/scenes/VillageOld.ts:441-502 | loot events leave every registered render object alive, including the deferred deletion after a fade |
| Scene.FixedTickKeepsStoredAlive | src/scenes/VillageOld.ts:655-698 | a tick only blends and prunes entries, so every registered render object stays alive |
| Scene.Apply | src/scenes/Village.ts:160-286 | events never touch the tick or the outbox; the registered scene ignores monster and loot events; adding the local player spawns a fresh avatar; removing the registered local player destroys its sprite and resets what its data store held; only obstacle events change the obstacle list |
| Scene.Destroyed | src/scenes/Village.ts:280-285 | a destroyed local sprite is out of the scene, reads velocity 0 and no grounded or attacking flag, and keeps its position, animation and mirror flag |
| Scene.LocalRemovalFreezesAnimation | src/scenes/Village.ts:474-486 | after the local player's entry is removed, the next tick steps the avatar from rest with no grounded or attacking flag and leaves its animation and mirror flag as they were |
| Scene.RemoveEventsIdempotent | src/scenes/Village.ts:280-286 | a second removal of a player or monster changes nothing, and removing an unknown one changes nothing |
| Scene.LootFadeLifecycle | src/scenes/VillageOld.ts:484-502 | a removed coin stays registered while it fades, and its completion removes exactly its index |
| Scene.LootChangeForMissingIndexIgnored | src/scenes/VillageOld.ts:467-469 | a loot change for an index without a render object leaves the scene unchanged |

## Left out

- Rendering: Phaser sprites, tilemaps, cameras, the debug reference rectangles, animation definitions, scale tweens and name-label positions. Only the chosen animation key, the mirror flag and whether a name label exists are modelled.
- Networking: connecting, joining, portals and leaving the room. Sent messages are an output sequence; only the input payload is gated by the connection's `isOpen` flag, and the collect request is not.
- The write of `isFacingLeft` into the server's own player object during the horizontal move. It changes foreign state, not the scene.
- The mouse-down handler that starts an attack and the callback that ends it. `isAttacking` is an input the step reads and never changes.
- The login scene, the chat widget, the HUD scene and the configuration constants.
- IEEE-754 doubles: coordinates are exact reals, and 1000/60 is an exact rational.
- Scene.Apply: handlers that capture the render object in a closure (remote player, monster and loot change, monster vanish completion) are modelled as lookups of the entry at the index when the event arrives.
- Registry.ChangeRemotePlayer: for a destroyed render object, the registered scene would call `play` on it and the engine would fail. The model only stores the server position then.
- Player arrival and departure in the legacy scene: it adds a render object when a player appears in `spawnedPlayers` (src/scenes/VillageOld.ts:182) but deletes it when the player leaves `players` (src/scenes/VillageOld.ts:299). The current scene uses `spawnedPlayers` for both (src/scenes/Village.ts:175, 280). The model has one `PlayerAdded` / `PlayerRemoved` stream for both scenes. For the legacy scene, `PlayerAdded` stands for a `spawnedPlayers` addition and `PlayerRemoved` for a `players` removal. A legacy despawn from `spawnedPlayers` by a player who stays in `players` keeps the render object in the code; the model has no event for it, which is the same as leaving the scene unchanged.
- Registry.RemoveLoot: the fade tween's alpha and upward drift are not modelled; only the deferred deletion is.
- Physics.Step: uses the corrected collision test `Geometry.Collides` from "## Findings", not the `prevY || y` fallback. An avatar whose stored previous y is exactly 0 can therefore land on a one-way platform here where the code lets it fall through.
- Physics.VerticalPass: uses the corrected collision test, as `Physics.Step` does.
- Physics.GroundedIffLanded: states the corrected collision test, as `Physics.Step` does.
- Physics.LandingSnapsOntoTop: states the corrected collision test, as `Physics.Step` does.
- Physics.RestingIsFixedPoint: states the corrected collision test. For an avatar resting at y = 0 on a one-way platform, the code's fallback would let it fall.
- Scene.FixedTick: steps the avatar with the corrected collision test, as `Physics.Step` does.
- Scene.TickSimulates: steps the avatar with the corrected collision test, as `Physics.Step` does.
- Scene.Apply: a loot fade completion uses the corrected `Registry.FadeFinished` from "## Findings". It deletes the entry only while it is the object that faded, where the code deletes whatever entry is at the index.
- Physics.Fall: `velocityY || 0` is modelled as the stored velocity, which starts at 0, so a missing value and 0 coincide.
- Scene.Update: the engine's `time` argument is not modelled; the fixed tick does not read it.

## Findings

| source | as written | input that shows it | evidently intended | confidence | as-written member | corrected member |
|---|---|---|---|---|---|---|
| src/scenes/VillageOld.ts:755-757 | `prevY \|\| player.y` treats a stored previous y of 0 as missing and uses the current y instead (the same line is at src/scenes/Village.ts:519) | an avatar that starts a tick at y = 0 and falls to y = 0.5 with velocity 0.5 onto a one-way platform centred at (0, 24), 32 x 16 (top 16): its previous bottom is 16 <= 16, yet the fallback reads 16.5 > 16 and the avatar falls through | use the stored previous y whenever it is set, including 0 | not executed; high that the outcome differs, medium that y = 0 occurs in play | Geometry.CollidesAsWritten, Geometry.ZeroPrevYFallsThroughOneWay | Geometry.Collides, Geometry.CollidesShiftInvariant |
| src/scenes/VillageOld.ts:493-499 | the fade-out completion deletes `lootEntities[index]`, whatever entry is at that index by then | a coin at index 3 is removed and starts fading; a new coin is added at index 3 before the 200 ms fade ends; the old fade's completion deletes the new coin's entry | delete the entry only if it is still the render object that faded | not executed; medium (needs an index reused within 200 ms) | Registry.FadeFinishedAsWritten, Registry.FadeAfterIndexReuse | Registry.FadeFinished, Registry.ReusedIndexSurvivesOldFade |

=== FILE: animation.dfy ===
/** The discrete presentation state the scene derives from flags: which
    animation a remote player, a monster or the local avatar plays, and
    whether its sprite is mirrored. */
module Animation {
  import opened Optional
  import opened Entities

  /** Horizontal displacement above which a remote player counts as moving. */
  const MoveThreshold: real := 0.1

  /** Monster speed above which it runs rather than walks. */
  const RunSpeed: real := 2.0

  function Abs(r: real): real {
    if r < 0.0 then -r else r
  }

  /** A remote player's animation on a change event: attacking, then airborne,
      then moving (the new authoritative x differs from the rendered x by more
      than the threshold), else idle. */
  function RemotePlayerAnim(isAttacking: bool, isGrounded: bool, serverX: real, renderX: real): (k: AnimKey)
    ensures k == CharacterAttack <==> isAttacking
    ensures k == CharacterJump <==> !isAttacking && !isGrounded
    ensures k == CharacterRun <==> !isAttacking && isGrounded && (serverX > renderX + MoveThreshold || serverX < renderX - MoveThreshold)
    ensures k == CharacterIdle <==> !isAttacking && isGrounded && renderX - MoveThreshold <= serverX <= renderX + MoveThreshold
  {
    if isAttacking then CharacterAttack
    else if !isGrounded then CharacterJump
    else if Abs(serverX - renderX) > MoveThreshold then CharacterRun
    else CharacterIdle
  }

  /** Whether a remote player's sprite is mirrored: the current scene mirrors a player
      moving left, the legacy scene one whose authoritative state faces left. */
  function RemoteFlip(variant: Variant, p: PlayerState): bool
  {
    match variant
    case Current => p.velocityX < 0.0
    case Legacy => p.isFacingLeft
  }

  /** The local avatar's animation after a tick: attacking, then airborne, then running
      while left or right is held (mirrored exactly when left is held), else idle.
      The mirror flag only changes on the running branch. */
  function LocalAnim(isAttacking: bool, isGrounded: bool, left: bool, right: bool, flipX: bool): (r: (AnimKey, bool))
    ensures r.0 == CharacterAttack <==> isAttacking
    ensures r.0 == CharacterJump <==> !isAttacking && !isGrounded
    ensures r.0 == CharacterRun <==> !isAttacking && isGrounded && (left || right)
    ensures r.0 == CharacterIdle <==> !isAttacking && isGrounded && !left && !right
    ensures r.1 == (if r.0 == CharacterRun then left else flipX)
  {
    if isAttacking then (CharacterAttack, flipX)
    else if !isGrounded then (CharacterJump, flipX)
    else if left || right then (CharacterRun, left)
    else (CharacterIdle, flipX)
  }

  /** A monster's gait from its horizontal speed. */
  function Gait(velocityX: real): (k: AnimKey)
    ensures k == BoarRun <==> velocityX > RunSpeed || velocityX < -RunSpeed
    ensures k == BoarWalk <==> (0.0 < velocityX <= RunSpeed || -RunSpeed <= velocityX < 0.0)
    ensures k == BoarIdle <==> velocityX == 0.0
  {
    if Abs(velocityX) > RunSpeed then BoarRun
    else if Abs(velocityX) > 0.0 then BoarWalk
    else BoarIdle
  }

  /** The vanish animation is on screen and has not finished. */
  predicate VanishPlaying(p: Playback) {
    p.playing && p.key == Some(BoarVanish)
  }

  /** A monster's playback after a change event: a hit plays vanish; otherwise the
      gait is played unless a vanish is still running, which is left to finish. */
  function MonsterAnim(isHit: bool, velocityX: real, cur: Playback): (r: Playback)
    ensures r.playing
    ensures isHit ==> r.key == Some(BoarVanish)
    ensures !isHit && VanishPlaying(cur) ==> r == cur
    ensures !isHit && !VanishPlaying(cur) ==> r.key == Some(Gait(velocityX))
  {
    if isHit then Playback(Some(BoarVanish), true)
    else if VanishPlaying(cur) then cur
    else Playback(Some(Gait(velocityX)), true)
  }

  /** When a vanish animation completes, the callback it armed plays the gait for
      the monster's speed at that moment; any other playback is left alone. */
  function VanishFinished(cur: Playback, velocityX: real): Playback
  {
    if VanishPlaying(cur) then Playback(Some(Gait(velocityX)), true) else cur
  }

  /** A monster sprite is mirrored exactly when it moves right. */
  function MonsterFlip(velocityX: real): bool
  {
    velocityX > 0.0
  }

  /** Every monster playback a change event can produce is one of the four boar animations. */
  lemma MonsterAnimIsBoar(isHit: bool, velocityX: real, cur: Playback)
    requires cur.key.Some? ==> cur.key.value in {BoarIdle, BoarWalk, BoarRun, BoarVanish}
    ensures var r := MonsterAnim(isHit, velocityX, cur);
            r.key.Some? && r.key.value in {BoarIdle, BoarWalk, BoarRun, BoarVanish}
  {
  }

  /** The gait and the hit flag decide the monster's playback, except while a vanish is
      running: two change events with the same flags and no vanish in progress agree. */
  lemma MonsterAnimIgnoresHistory(isHit: bool, velocityX: real, c1: Playback, c2: Playback)
    requires isHit || (!VanishPlaying(c1) && !VanishPlaying(c2))
    ensures MonsterAnim(isHit, velocityX, c1) == MonsterAnim(isHit, velocityX, c2)
  {
  }
}

=== FILE: entities.dfy ===
/** The locally rendered side of the scene's entities, and the fields of the
    authoritative state objects that the scene's handlers read. */
module Entities {
  import opened Optional

  /** Which scene file the behaviour follows: `Current` is the registered
      village scene, `Legacy` the older one that also handles monsters, loot
      and name labels. */
  datatype Variant = Current | Legacy

  /** The animation keys the scene plays. */
  datatype AnimKey =
    | CharacterIdle | CharacterRun | CharacterJump | CharacterAttack
    | BoarIdle | BoarWalk | BoarRun | BoarVanish
    | CoinSpin

  /** What a sprite shows: its current animation, if any, and whether it is still playing. */
  datatype Playback = Playback(key: Option<AnimKey>, playing: bool)

  /** A render object in one of the keyed registries. `token` is the object's identity,
      `alive` says it still belongs to the scene (not destroyed), `hasData` that its data
      store exists (the engine creates it on the first stored value), (x, y) is the rendered
      position, and serverX / serverY are the authoritative position last stored in its
      data, absent until the first change event. */
  datatype Sprite = Sprite(
    token: nat,
    alive: bool,
    hasData: bool,
    x: real,
    y: real,
    serverX: Option<real>,
    serverY: Option<real>,
    playback: Playback,
    flipX: bool)

  /** A fresh render object at (x, y): alive, with no data store and so no
      authoritative position stored yet. */
  function NewSprite(token: nat, x: real, y: real, playback: Playback): (s: Sprite)
    ensures s.alive && !s.hasData && s.serverX.None? && s.serverY.None?
    ensures s.x == x && s.y == y && s.token == token && s.playback == playback && !s.flipX
  {
    Sprite(token, true, false, x, y, None, None, playback, false)
  }

  /** A loot render object: `tinted` once the authority reports it being collected,
      `fading` from its removal until its fade-out completes. */
  datatype Coin = Coin(sprite: Sprite, tinted: bool, fading: bool)

  /** Fields of an authoritative player the change handler reads. */
  datatype PlayerState = PlayerState(
    x: real, y: real, isAttacking: bool, isGrounded: bool, isFacingLeft: bool, velocityX: real)

  /** Fields of an authoritative monster the change handler reads. */
  datatype MonsterState = MonsterState(x: real, y: real, isHit: bool, velocityX: real)

  /** Fields of an authoritative loot item the handlers read. */
  datatype LootState = LootState(x: real, y: real, isCoin: bool, isBeingCollected: bool)
}

=== FILE: geometry.dfy ===
/** The axis-aligned collision test of the game scene (`checkCollision`):
    the avatar is a 32 x 32 box centred on its position, an obstacle is a box
    centred on (x, y) with its own width and height, and a one-way platform
    only blocks an avatar that is not rising and whose previous bottom edge
    was at or above the platform's top edge. */
module Geometry {

  /** Half of the avatar's 32-unit collision box. */
  const HalfExtent: real := 16.0

  datatype Obstacle = Obstacle(x: real, y: real, width: real, height: real, isOneWayPlatform: bool)
  {
    function Left(): real { x - width / 2.0 }
    function Right(): real { x + width / 2.0 }
    function Top(): real { y - height / 2.0 }
    function Bottom(): real { y + height / 2.0 }

    /** The same rectangle without the one-way flag. */
    function AsRegular(): Obstacle { this.(isOneWayPlatform := false) }

    /** The same obstacle moved by (dx, dy). */
    function Moved(dx: real, dy: real): Obstacle { this.(x := x + dx, y := y + dy) }
  }

  /** What the collision test reads from the avatar: its current position,
      its stored vertical velocity and its stored previous y. */
  datatype Probe = Probe(x: real, y: real, velocityY: real, prevY: real)
  {
    /** The same avatar, current and previous position moved by (dx, dy). */
    function Moved(dx: real, dy: real): Probe { this.(x := x + dx, y := y + dy, prevY := prevY + dy) }
  }

  /** Strict overlap of the avatar box centred on (x, y) with the obstacle:
      boxes that only share an edge do not overlap. */
  predicate Overlaps(x: real, y: real, o: Obstacle) {
    && x + HalfExtent > o.Left()
    && x - HalfExtent < o.Right()
    && y + HalfExtent > o.Top()
    && y - HalfExtent < o.Bottom()
  }

  /** The one-way gate: not rising, and the previous bottom edge at or above the top. */
  predicate OneWayGate(velocityY: real, prevY: real, o: Obstacle) {
    velocityY >= 0.0 && prevY + HalfExtent <= o.Top()
  }

  /** The collision test with the previous y taken as stored. */
  predicate Collides(p: Probe, o: Obstacle) {
    if o.isOneWayPlatform then OneWayGate(p.velocityY, p.prevY, o) && Overlaps(p.x, p.y, o)
    else Overlaps(p.x, p.y, o)
  }

  /** The previous y as the scene reads it, `prevY || y`: a stored 0 counts as absent. */
  function PrevYOrCurrent(p: Probe): real {
    if p.prevY == 0.0 then p.y else p.prevY
  }

  /** The collision test exactly as the scene writes it, with the `prevY || y` fallback. */
  predicate CollidesAsWritten(p: Probe, o: Obstacle) {
    if o.isOneWayPlatform then OneWayGate(p.velocityY, PrevYOrCurrent(p), o) && Overlaps(p.x, p.y, o)
    else Overlaps(p.x, p.y, o)
  }

  /** A point strictly inside an axis-aligned box given by its four edges. */
  predicate Inside(px: real, py: real, left: real, right: real, top: real, bottom: real) {
    left < px < right && top < py < bottom
  }

  /** The collision test depends only on where the avatar is relative to the obstacle:
      moving the avatar (now and at the start of the tick) and the obstacle by the same
      offset never changes the outcome. */
  lemma CollidesShiftInvariant(p: Probe, o: Obstacle, dx: real, dy: real)
    ensures Collides(p.Moved(dx, dy), o.Moved(dx, dy)) <==> Collides(p, o)
  {
  }

  /** Touching edges never collide: the inequalities are strict. */
  lemma TouchingEdgesDoNotCollide(p: Probe, o: Obstacle)
    requires || p.x + HalfExtent == o.Left()
             || p.x - HalfExtent == o.Right()
             || p.y + HalfExtent == o.Top()
             || p.y - HalfExtent == o.Bottom()
    ensures !Collides(p, o)
  {
  }

  /** A hit on a one-way platform is also a hit on the same rectangle as a regular obstacle. */
  lemma OneWayHitImpliesRegularHit(p: Probe, o: Obstacle)
    requires o.isOneWayPlatform && Collides(p, o)
    ensures Collides(p, o.AsRegular())
  {
  }

  /** A rising avatar never hits a one-way platform. */
  lemma NoOneWayHitWhileRising(p: Probe, o: Obstacle)
    requires o.isOneWayPlatform && p.velocityY < 0.0
    ensures !Collides(p, o)
  {
  }

  /** An avatar whose previous bottom edge was below a one-way platform's top
      passes through it, whatever its velocity. */
  lemma OneWayPassesFromBelow(p: Probe, o: Obstacle)
    requires o.isOneWayPlatform && p.prevY + HalfExtent > o.Top()
    ensures !Collides(p, o)
  {
  }

  /** When the stored previous y is the current y (as in the horizontal pass),
      no one-way platform can collide: the gate and the overlap exclude each other. */
  lemma OneWayInertAtStoredPosition(p: Probe, o: Obstacle)
    requires o.isOneWayPlatform && p.prevY == p.y
    ensures !Collides(p, o)
  {
  }

  /** For boxes of positive size, the strict overlap test holds exactly when some
      point lies strictly inside both boxes. */
  lemma OverlapIffSharedInterior(x: real, y: real, o: Obstacle)
    requires o.width > 0.0 && o.height > 0.0
    ensures Overlaps(x, y, o) <==>
      exists px, py :: Inside(px, py, x - HalfExtent, x + HalfExtent, y - HalfExtent, y + HalfExtent)
                    && Inside(px, py, o.Left(), o.Right(), o.Top(), o.Bottom())
  {
    if Overlaps(x, y, o) {
      var lo := if x - HalfExtent < o.Left() then o.Left() else x - HalfExtent;
      var hi := if x + HalfExtent < o.Right() then x + HalfExtent else o.Right();
      var up := if y - HalfExtent < o.Top() then o.Top() else y - HalfExtent;
      var dn := if y + HalfExtent < o.Bottom() then y + HalfExtent else o.Bottom();
      var px, py := (lo + hi) / 2.0, (up + dn) / 2.0;
      assert Inside(px, py, x - HalfExtent, x + HalfExtent, y - HalfExtent, y + HalfExtent);
      assert Inside(px, py, o.Left(), o.Right(), o.Top(), o.Bottom());
    }
  }

  /** The `prevY || y` fallback only matters when the stored previous y is exactly 0. */
  lemma AsWrittenAgreesUnlessPrevYZero(p: Probe, o: Obstacle)
    requires p.prevY != 0.0
    ensures CollidesAsWritten(p, o) <==> Collides(p, o)
  {
  }

  /** An avatar that starts a tick at y = 0 and falls half a unit onto a one-way
      platform whose top is at 16 lands by the stored previous y, but the scene's
      fallback reads the current y instead, closes the gate and lets it fall through.
      The same fall one unit lower does land as written: the fallback breaks the
      shift invariance that the stored-y test keeps. */
  lemma ZeroPrevYFallsThroughOneWay()
    ensures var p := Probe(0.0, 0.5, 0.5, 0.0);
            var o := Obstacle(0.0, 24.0, 32.0, 16.0, true);
            && Collides(p, o) && !CollidesAsWritten(p, o)
            && CollidesAsWritten(p.Moved(0.0, 1.0), o.Moved(0.0, 1.0))
  {
  }
}

=== FILE: optional.dfy ===
/** A value that may be absent: stands in for the `undefined` that the client
    reads from a sprite's data store or from a registry entry that was never set. */
module Optional {
  datatype Option<+T> = None | Some(value: T)
}

=== FILE: physics.dfy ===
/** The client-side prediction of the local avatar, one fixed tick at a time
    (the physics part of `fixedTick`): horizontal move with a first-hit revert,
    jump, gravity, and a first-hit vertical resolution that either lands the
    avatar on top of an obstacle or puts it back at its previous height. */
module Physics {
  import opened Optional
  import opened Geometry

  const HorizontalVelocity: real := 2.0
  const GravityStep: real := 0.5
  const JumpVelocity: real := -12.0

  /** The predicted avatar: position, stored vertical velocity, stored previous y
      and the two flags the step reads. `isAttacking` is set by the attack input
      outside the step; a fresh avatar has velocity 0 and is not grounded. */
  datatype Avatar = Avatar(x: real, y: real, velocityY: real, prevY: real, isGrounded: bool, isAttacking: bool)

  /** The movement keys the step reads from the tick's input payload. */
  datatype Intent = Intent(left: bool, right: bool, jump: bool)

  /** Index of the first obstacle, in list order, that the probe collides with. */
  function FirstHit(p: Probe, obstacles: seq<Obstacle>): (r: Option<nat>)
    ensures r.Some? ==> r.value < |obstacles| && Collides(p, obstacles[r.value])
    ensures r.Some? ==> forall j :: 0 <= j < r.value ==> !Collides(p, obstacles[j])
    ensures r.None? <==> forall j :: 0 <= j < |obstacles| ==> !Collides(p, obstacles[j])
  {
    if |obstacles| == 0 then None
    else if Collides(p, obstacles[0]) then Some(0)
    else match FirstHit(p, obstacles[1..])
      case None => None
      case Some(k) => Some(k + 1)
  }

  /** Some obstacle of the list collides with the probe. */
  predicate Blocked(p: Probe, obstacles: seq<Obstacle>) {
    exists o :: o in obstacles && Collides(p, o)
  }

  /** The avatar probed at a candidate x: the tick has already stored its
      current y as the previous y, and its velocity is the stored one. */
  function AtX(a: Avatar, x: real): Probe {
    Probe(x, a.y, a.velocityY, a.y)
  }

  /** Move to `target` unless some obstacle collides there; the scan stops at the first hit. */
  function Slide(a: Avatar, target: real, obstacles: seq<Obstacle>): real {
    if FirstHit(AtX(a, target), obstacles).Some? then a.x else target
  }

  /** The horizontal pass of the tick. The probe takes the avatar's current y as its
      previous y, so the stored previous y plays no part. */
  function HorizontalPass(a: Avatar, i: Intent, obstacles: seq<Obstacle>): (x: real)
    ensures a.isAttacking ==> x == a.x
    ensures !a.isAttacking && i.left ==>
      (x == a.x - HorizontalVelocity <==> !Blocked(AtX(a, a.x - HorizontalVelocity), obstacles))
      && (x == a.x <==> Blocked(AtX(a, a.x - HorizontalVelocity), obstacles))
    ensures !a.isAttacking && !i.left && i.right ==>
      (x == a.x + HorizontalVelocity <==> !Blocked(AtX(a, a.x + HorizontalVelocity), obstacles))
      && (x == a.x <==> Blocked(AtX(a, a.x + HorizontalVelocity), obstacles))
    ensures !i.left && !i.right ==> x == a.x
    ensures x != a.x ==> !Blocked(AtX(a, x), obstacles)
  {
    if a.isAttacking then a.x
    else if i.left then Slide(a, a.x - HorizontalVelocity, obstacles)
    else if i.right then Slide(a, a.x + HorizontalVelocity, obstacles)
    else a.x
  }

  /** Start a jump: only when jump is held, the avatar is grounded and not attacking. */
  function Jump(a: Avatar, i: Intent): (r: Avatar)
    ensures r.velocityY == JumpVelocity <==> (i.jump && a.isGrounded && !a.isAttacking) || a.velocityY == JumpVelocity
    ensures (i.jump && a.isGrounded && !a.isAttacking) ==> !r.isGrounded
    ensures !(i.jump && a.isGrounded && !a.isAttacking) ==> r == a
    ensures r.x == a.x && r.y == a.y && r.prevY == a.prevY && r.isAttacking == a.isAttacking
  {
    if !a.isAttacking && i.jump && a.isGrounded then a.(velocityY := JumpVelocity, isGrounded := false)
    else a
  }

  /** Gravity, applied on every tick. */
  function Fall(a: Avatar): Avatar
  {
    var v := a.velocityY + GravityStep;
    a.(y := a.y + v, velocityY := v)
  }

  /** The probe of the vertical pass: position after gravity, the new velocity,
      and the y the avatar had when the tick began. */
  function Falling(a: Avatar): Probe {
    Probe(a.x, a.y, a.velocityY, a.prevY)
  }

  /** A landing on obstacle `o`: the previous bottom edge was at or above its top. */
  predicate LandsOn(prevY: real, o: Obstacle) {
    prevY + HalfExtent <= o.Top()
  }

  /** The vertical pass: only the first colliding obstacle is applied. */
  function VerticalPass(a: Avatar, obstacles: seq<Obstacle>): (r: Avatar)
    ensures r.x == a.x && r.prevY == a.prevY && r.isAttacking == a.isAttacking
    ensures !Blocked(Falling(a), obstacles) ==> r == a.(isGrounded := false)
    ensures forall k :: 0 <= k < |obstacles| && Collides(Falling(a), obstacles[k])
                        && (forall j :: 0 <= j < k ==> !Collides(Falling(a), obstacles[j])) ==>
              r.velocityY == 0.0
              && (LandsOn(a.prevY, obstacles[k]) ==> r.y == obstacles[k].Top() - HalfExtent && r.isGrounded)
              && (!LandsOn(a.prevY, obstacles[k]) ==> r.y == a.prevY && !r.isGrounded)
  {
    match FirstHit(Falling(a), obstacles)
    case None => a.(isGrounded := false)
    case Some(k) =>
      var top := obstacles[k].Top();
      if a.prevY + HalfExtent <= top then a.(y := top - HalfExtent, velocityY := 0.0, isGrounded := true)
      else a.(y := a.prevY, velocityY := 0.0, isGrounded := false)
  }

  /** The avatar after the jump and gravity phases of a tick, before vertical resolution. */
  function Airborne(a: Avatar, i: Intent, obstacles: seq<Obstacle>): Avatar {
    var start := a.(prevY := a.y);
    var moved := start.(x := HorizontalPass(start, i, obstacles));
    Fall(Jump(moved, i))
  }

  /** One fixed tick of the local avatar. */
  function Step(a: Avatar, i: Intent, obstacles: seq<Obstacle>): (r: Avatar)
    ensures r.prevY == a.y && r.isAttacking == a.isAttacking
    ensures r.x == a.x
            || (!a.isAttacking && i.left && r.x == a.x - HorizontalVelocity)
            || (!a.isAttacking && !i.left && i.right && r.x == a.x + HorizontalVelocity)
    ensures r.isGrounded ==>
              (r.velocityY == 0.0 && exists o :: o in obstacles && LandsOn(a.y, o) && r.y == o.Top() - HalfExtent)
    ensures !r.isGrounded ==> (r.velocityY == 0.0 && r.y == a.y)
                              || (r.y == a.y + r.velocityY && !Blocked(Falling(Airborne(a, i, obstacles)), obstacles))
  {
    VerticalPass(Airborne(a, i, obstacles), obstacles)
  }

  /** The grounded flag after a tick is true exactly when the first obstacle hit
      by the falling avatar is one it lands on; every other outcome clears it. */
  lemma GroundedIffLanded(a: Avatar, i: Intent, obstacles: seq<Obstacle>)
    ensures var f := Airborne(a, i, obstacles);
            Step(a, i, obstacles).isGrounded <==>
              exists k :: 0 <= k < |obstacles| && Collides(Falling(f), obstacles[k])
                          && (forall j :: 0 <= j < k ==> !Collides(Falling(f), obstacles[j]))
                          && LandsOn(a.y, obstacles[k])
  {
    var f := Airborne(a, i, obstacles);
    match FirstHit(Falling(f), obstacles)
    case None =>
    case Some(k) =>
      forall k' | 0 <= k' < |obstacles| && Collides(Falling(f), obstacles[k'])
                  && (forall j :: 0 <= j < k' ==> !Collides(Falling(f), obstacles[j]))
        ensures k' == k
      {
      }
  }

  /** The horizontal outcome depends only on which obstacles exist, not on their order. */
  lemma HorizontalOrderIndependent(a: Avatar, i: Intent, obs1: seq<Obstacle>, obs2: seq<Obstacle>)
    requires multiset(obs1) == multiset(obs2)
    ensures HorizontalPass(a, i, obs1) == HorizontalPass(a, i, obs2)
  {
    forall p: Probe ensures Blocked(p, obs1) <==> Blocked(p, obs2) {
      if Blocked(p, obs1) {
        var o :| o in obs1 && Collides(p, o);
        assert o in multiset(obs1);
        assert o in obs2;
      }
      if Blocked(p, obs2) {
        var o :| o in obs2 && Collides(p, o);
        assert o in multiset(obs2);
        assert o in obs1;
      }
    }
  }

  /** Before vertical resolution, the tick's velocity is the jump velocity when a
      jump starts (jump held, grounded, not attacking) and the stored velocity
      otherwise, plus one gravity step; the height moves by that velocity. */
  lemma JumpThenGravity(a: Avatar, i: Intent, obstacles: seq<Obstacle>)
    ensures var f := Airborne(a, i, obstacles);
            var v := if i.jump && a.isGrounded && !a.isAttacking then JumpVelocity else a.velocityY;
            f.velocityY == v + GravityStep && f.y == a.y + v + GravityStep && f.prevY == a.y
            && f.isGrounded == (a.isGrounded && !(i.jump && !a.isAttacking))
  {
  }

  /** A falling avatar whose first hit is an obstacle it lands on comes to rest
      exactly on that obstacle's top edge, with zero velocity, grounded. */
  lemma LandingSnapsOntoTop(a: Avatar, i: Intent, obstacles: seq<Obstacle>, k: nat)
    requires k < |obstacles|
    requires Collides(Falling(Airborne(a, i, obstacles)), obstacles[k])
    requires forall j :: 0 <= j < k ==> !Collides(Falling(Airborne(a, i, obstacles)), obstacles[j])
    requires LandsOn(a.y, obstacles[k])
    ensures var r := Step(a, i, obstacles);
            r.y == obstacles[k].Top() - HalfExtent && r.velocityY == 0.0 && r.isGrounded
  {
  }

  /** The avatar's box in a resting position one gravity step lower: what the
      vertical pass tests for an idle avatar with zero velocity. */
  function RestProbe(a: Avatar): Probe {
    Probe(a.x, a.y + GravityStep, GravityStep, a.y)
  }

  /** Resting is a fixed point: an idle avatar with zero velocity standing on the
      top edge of an obstacle it horizontally overlaps, with no earlier obstacle in
      the way, keeps its height and zero velocity and stays grounded. */
  lemma RestingIsFixedPoint(a: Avatar, obstacles: seq<Obstacle>, k: nat)
    requires k < |obstacles| && obstacles[k].height >= 0.0
    requires a.velocityY == 0.0 && a.y == obstacles[k].Top() - HalfExtent
    requires a.x + HalfExtent > obstacles[k].Left() && a.x - HalfExtent < obstacles[k].Right()
    requires forall j :: 0 <= j < k ==> !Collides(RestProbe(a), obstacles[j])
    ensures var r := Step(a, Intent(false, false, false), obstacles);
            r.x == a.x && r.y == a.y && r.velocityY == 0.0 && r.isGrounded
  {
    var f := Airborne(a, Intent(false, false, false), obstacles);
    assert Falling(f) == RestProbe(a);
    assert Collides(RestProbe(a), obstacles[k]);
  }

  /** An idle avatar embedded in a regular obstacle from the side or below (its
      bottom edge already past the top) is held at its height with zero velocity,
      and the tick leaves it not grounded. */
  lemma EmbeddedAvatarHeldInPlace(a: Avatar, obstacles: seq<Obstacle>, k: nat)
    requires k < |obstacles| && !obstacles[k].isOneWayPlatform
    requires a.velocityY == 0.0 && !LandsOn(a.y, obstacles[k])
    requires Overlaps(a.x, a.y + GravityStep, obstacles[k])
    requires forall j :: 0 <= j < k ==> !Collides(RestProbe(a), obstacles[j])
    ensures var r := Step(a, Intent(false, false, false), obstacles);
            r == a.(prevY := a.y, isGrounded := false)
  {
    var f := Airborne(a, Intent(false, false, false), obstacles);
    assert Falling(f) == RestProbe(a);
  }

  /** `n` idle ticks of the avatar against a fixed obstacle list. */
  function IdleTicks(a: Avatar, obstacles: seq<Obstacle>, n: nat): Avatar
    decreases n
  {
    if n == 0 then a else IdleTicks(Step(a, Intent(false, false, false), obstacles), obstacles, n - 1)
  }

  /** One idle tick with nothing to hit: x stays, gravity adds 0.5 to the velocity,
      y moves by the new velocity, and the avatar is not grounded. */
  lemma FreeFallStep(a: Avatar)
    ensures Step(a, Intent(false, false, false), [])
         == a.(prevY := a.y, y := a.y + a.velocityY + GravityStep,
               velocityY := a.velocityY + GravityStep, isGrounded := false)
  {
  }

  /** Free fall: with no obstacle, n idle ticks add 0.5 n to the velocity and move y
      by n times the starting velocity plus 0.25 n (n + 1), the sum of the
      per-tick gravity steps 0.5 (1 + 2 + ... + n). */
  lemma {:induction false} FreeFall(a: Avatar, n: nat)
    ensures var r := IdleTicks(a, [], n);
            && r.x == a.x
            && r.velocityY == a.velocityY + GravityStep * n as real
            && r.y == a.y + (n as real) * a.velocityY + 0.25 * (n as real) * (n as real + 1.0)
            && (n > 0 ==> !r.isGrounded)
    decreases n
  {
    if n > 0 {
      var b := Step(a, Intent(false, false, false), []);
      FreeFallStep(a);
      FreeFall(b, n - 1);
      var m := (n - 1) as real;
      assert m * (a.velocityY + GravityStep) == m * a.velocityY + 0.5 * m;
    }
  }

  /** Avatar at (100, 200) with zero velocity above a 32 x 16 regular obstacle centred
      at (100, 216): the obstacle's top is 208, so the avatar's bottom (216) is already
      inside it. The scene never lands it; every tick puts it back at y = 200 with
      zero velocity and clears the grounded flag. */
  lemma {:induction false} EmbeddedScenario(n: nat, grounded: bool)
    requires n >= 1
    ensures var a := Avatar(100.0, 200.0, 0.0, 200.0, grounded, false);
            IdleTicks(a, [Obstacle(100.0, 216.0, 32.0, 16.0, false)], n)
              == Avatar(100.0, 200.0, 0.0, 200.0, false, false)
  {
    var obs := [Obstacle(100.0, 216.0, 32.0, 16.0, false)];
    var a := Avatar(100.0, 200.0, 0.0, 200.0, grounded, false);
    var rest := Avatar(100.0, 200.0, 0.0, 200.0, false, false);
    EmbeddedAvatarHeldInPlace(a, obs, 0);
    if n > 1 {
      EmbeddedScenario(n - 1, false);
    }
  }
}

=== FILE: reconcile.dfy ===
/** Reconciliation of remote entities on every fixed tick: each live render
    object with a stored authoritative position is nudged toward it with a
    linear blend (0.4 of the gap on x, 0.6 on y), entries without both server
    coordinates are left alone, and entries whose render object is gone or has
    no data store yet are pruned from the player and loot registries but kept
    (and skipped) in the monster one. */
module Reconcile {
  import opened Optional
  import opened Entities

  const BlendX: real := 0.4
  const BlendY: real := 0.6

  /** Linear interpolation from p0 toward p1 by fraction t (the engine's `Linear`). */
  function Linear(p0: real, p1: real, t: real): real {
    (p1 - p0) * t + p0
  }

  /** Both authoritative coordinates have been stored on the render object. */
  predicate HasServerPosition(s: Sprite) {
    s.serverX.Some? && s.serverY.Some?
  }

  /** One blend step. The gap to the authoritative position shrinks to 0.6 of
      itself on x and to 0.4 of itself on y; nothing but the position changes. */
  function Blend(s: Sprite): (r: Sprite)
    ensures HasServerPosition(s) ==>
              && s.serverX.value - r.x == (1.0 - BlendX) * (s.serverX.value - s.x)
              && s.serverY.value - r.y == (1.0 - BlendY) * (s.serverY.value - s.y)
    ensures !HasServerPosition(s) ==> r == s
    ensures r == s.(x := r.x, y := r.y)
  {
    if HasServerPosition(s) then
      s.(x := Linear(s.x, s.serverX.value, BlendX), y := Linear(s.y, s.serverY.value, BlendY))
    else s
  }

  /** A blend never overshoots: the new position lies between the old one and the target. */
  lemma BlendStaysBetween(s: Sprite)
    requires HasServerPosition(s)
    ensures var r := Blend(s);
            && (s.x <= s.serverX.value ==> s.x <= r.x <= s.serverX.value)
            && (s.serverX.value <= s.x ==> s.serverX.value <= r.x <= s.x)
            && (s.y <= s.serverY.value ==> s.y <= r.y <= s.serverY.value)
            && (s.serverY.value <= s.y ==> s.serverY.value <= r.y <= s.y)
  {
  }

  function Pow(b: real, n: nat): real {
    if n == 0 then 1.0 else b * Pow(b, n - 1)
  }

  /** `n` ticks of blending with no authoritative change in between. */
  function BlendTimes(s: Sprite, n: nat): Sprite {
    if n == 0 then s else Blend(BlendTimes(s, n - 1))
  }

  /** Blending never touches the stored authoritative position. */
  lemma {:induction false} BlendTimesKeepsTarget(s: Sprite, n: nat)
    ensures BlendTimes(s, n).serverX == s.serverX && BlendTimes(s, n).serverY == s.serverY
  {
    if n > 0 {
      BlendTimesKeepsTarget(s, n - 1);
    }
  }

  /** Scaling an already scaled gap once more multiplies the factors. */
  lemma Rescale(f: real, p: real, d: real, g: real)
    requires g == f * (p * d)
    ensures g == (f * p) * d
  {
  }

  /** Convergence: after n ticks toward a fixed target the horizontal gap is
      0.6^n of the original and the vertical gap 0.4^n of the original. */
  lemma {:induction false} ResidualAfterTicks(s: Sprite, n: nat)
    requires HasServerPosition(s)
    ensures var r := BlendTimes(s, n);
            && s.serverX.value - r.x == Pow(1.0 - BlendX, n) * (s.serverX.value - s.x)
            && s.serverY.value - r.y == Pow(1.0 - BlendY, n) * (s.serverY.value - s.y)
  {
    if n > 0 {
      ResidualAfterTicks(s, n - 1);
      BlendTimesKeepsTarget(s, n - 1);
      var prev := BlendTimes(s, n - 1);
      assert HasServerPosition(prev);
      Rescale(1.0 - BlendX, Pow(1.0 - BlendX, n - 1), s.serverX.value - s.x, s.serverX.value - BlendTimes(s, n).x);
      Rescale(1.0 - BlendY, Pow(1.0 - BlendY, n - 1), s.serverY.value - s.y, s.serverY.value - BlendTimes(s, n).y);
    }
  }

  /** The blend factors shrink the gap geometrically: each further tick's factor
      is no larger than the previous one and never negative. */
  lemma {:induction false} ResidualFactorShrinks(b: real, n: nat)
    requires 0.0 <= b <= 1.0
    ensures 0.0 <= Pow(b, n + 1) <= Pow(b, n) <= 1.0
  {
    if n > 0 {
      ResidualFactorShrinks(b, n - 1);
    }
    var p := Pow(b, n);
    assert 0.0 <= p <= 1.0;
    assert Pow(b, n + 1) == b * p;
    assert 0.0 <= b * p <= p by {
      assert (1.0 - b) * p >= 0.0;
    }
  }

  /** What the reconcile passes keep: a render object that still belongs to the scene
      and has a data store. A remote player's or a coin's store is created by its first
      change event, so until then the entry is not backed. */
  predicate Backed(s: Sprite) {
    s.alive && s.hasData
  }

  /** The player pass. The entry of the local player's registry name is skipped;
      every other entry whose render object is gone or has no data store is deleted,
      and the rest are blended. */
  function ReconcilePlayers(players: map<string, Sprite>, self: Option<string>): (r: map<string, Sprite>)
    ensures forall u :: u in r <==> u in players && (Backed(players[u]) || self == Some(u))
    ensures forall u :: u in r && self != Some(u) ==> r[u] == Blend(players[u])
    ensures forall u :: u in r && self == Some(u) ==> r[u] == players[u]
  {
    map u | u in players && (Backed(players[u]) || self == Some(u)) ::
      if self == Some(u) then players[u] else Blend(players[u])
  }

  /** The monster pass: entries that are gone or have no data store are skipped but
      never deleted. */
  function ReconcileMonsters(monsters: map<int, Sprite>): (r: map<int, Sprite>)
    ensures r.Keys == monsters.Keys
    ensures forall i :: i in r && !Backed(monsters[i]) ==> r[i] == monsters[i]
    ensures forall i :: i in r && Backed(monsters[i]) ==> r[i] == Blend(monsters[i])
  {
    map i | i in monsters :: if Backed(monsters[i]) then Blend(monsters[i]) else monsters[i]
  }

  /** The loot pass: entries that are gone or have no data store are deleted, the rest
      blended (a coin that is fading out is still blended until its fade completes). */
  function ReconcileLoot(loot: map<int, Coin>): (r: map<int, Coin>)
    ensures forall i :: i in r <==> i in loot && Backed(loot[i].sprite)
    ensures forall i :: i in r ==> r[i] == loot[i].(sprite := Blend(loot[i].sprite))
  {
    map i | i in loot && Backed(loot[i].sprite) :: loot[i].(sprite := Blend(loot[i].sprite))
  }

  /** Reconciling never adds an entry, keeps every backed one (and the skipped own
      name), never deletes a monster, and settles after one pass: a second pass
      deletes nothing more, because blending keeps an entry backed. */
  lemma {:induction false} ReconcileOnlyPrunesUnbacked(players: map<string, Sprite>, self: Option<string>,
                                                       monsters: map<int, Sprite>, loot: map<int, Coin>)
    ensures ReconcilePlayers(players, self).Keys <= players.Keys
    ensures forall u :: u in players && (Backed(players[u]) || self == Some(u)) ==> u in ReconcilePlayers(players, self)
    ensures ReconcilePlayers(ReconcilePlayers(players, self), self).Keys == ReconcilePlayers(players, self).Keys
    ensures ReconcileMonsters(monsters).Keys == monsters.Keys
    ensures ReconcileLoot(loot).Keys <= loot.Keys
    ensures forall i :: i in loot && Backed(loot[i].sprite) ==> i in ReconcileLoot(loot)
    ensures ReconcileLoot(ReconcileLoot(loot)).Keys == ReconcileLoot(loot).Keys
  {
    var once := ReconcilePlayers(players, self);
    forall u | u in once ensures u in ReconcilePlayers(once, self) {
      assert Backed(once[u]) || self == Some(u);
    }
    var kept := ReconcileLoot(loot);
    forall i | i in kept ensures i in ReconcileLoot(kept) {
      assert Backed(kept[i].sprite);
    }
  }
}

=== FILE: registry.dfy ===
/** The keyed registries of render objects and their lifecycle handlers:
    players by user name (with their name labels), monsters and loot by
    index. Adding stores a fresh render object at the key, removing tears it
    down if present and is a no-op otherwise; a change stores the
    authoritative position on the render object and updates its presentation. */
module Registry {
  import opened Optional
  import opened Entities
  import opened Animation
  import opened Reconcile

  /** A player, monster or loot render object is created without an animation,
      except a coin, which starts spinning. */
  function NoAnimation(): Playback { Playback(None, false) }

  // ---------------------------------------------------------------- players

  /** A player joined: its render object is stored under its user name, replacing
      any earlier one, and the legacy scene also creates a name label. */
  function AddPlayer(variant: Variant, players: map<string, Sprite>, labels: set<string>,
                     username: string, token: nat, x: real, y: real): (r: (map<string, Sprite>, set<string>))
    ensures r.0.Keys == players.Keys + {username}
    ensures r.0[username] == NewSprite(token, x, y, NoAnimation())
    ensures forall u :: u in players && u != username ==> r.0[u] == players[u]
    ensures r.1 == if variant == Legacy then labels + {username} else labels
  {
    (players[username := NewSprite(token, x, y, NoAnimation())],
     if variant == Legacy then labels + {username} else labels)
  }

  /** A player left: its render object and its name label are removed when present;
      a name that is in neither is a no-op. */
  function RemovePlayer(players: map<string, Sprite>, labels: set<string>, username: string): (r: (map<string, Sprite>, set<string>))
    ensures username !in r.0 && username !in r.1
    ensures forall u :: u != username ==> (u in r.0 <==> u in players) && (u in r.1 <==> u in labels)
    ensures forall u :: u in r.0 ==> r.0[u] == players[u]
    ensures username !in players && username !in labels ==> r == (players, labels)
  {
    (if username in players then players - {username} else players,
     if username in labels then labels - {username} else labels)
  }

  /** Removing a player who was just added under a name in neither registry
      restores both the render objects and the name labels. */
  lemma AddThenRemovePlayer(variant: Variant, players: map<string, Sprite>, labels: set<string>,
                            username: string, token: nat, x: real, y: real)
    requires username !in players && username !in labels
    ensures var added := AddPlayer(variant, players, labels, username, token, x, y);
            RemovePlayer(added.0, added.1, username) == (players, labels)
  {
    var added := AddPlayer(variant, players, labels, username, token, x, y);
    var removed := RemovePlayer(added.0, added.1, username);
    assert removed.0.Keys == players.Keys;
    assert removed.0 == players;
    if variant == Legacy {
      assert removed.1 == labels;
    }
  }

  /** A remote player's state changed: the new authoritative position is stored in its
      render object's data (creating the store), and a live one also gets its animation
      (chosen against its current rendered x) and its mirror flag: the current scene
      mirrors a player moving left, the legacy scene one whose state faces left. A
      destroyed render object only has the position stored: choosing its animation
      would fail in the engine. */
  function ChangeRemotePlayer(variant: Variant, players: map<string, Sprite>, username: string, p: PlayerState): (r: map<string, Sprite>)
    ensures r.Keys == players.Keys
    ensures forall u :: u in players && u != username ==> r[u] == players[u]
    ensures username in players ==>
      && r[username].hasData && r[username].serverX == Some(p.x) && r[username].serverY == Some(p.y)
      && r[username].x == players[username].x && r[username].y == players[username].y
      && r[username].token == players[username].token && r[username].alive == players[username].alive
      && (players[username].alive ==>
            && r[username].playback == Playback(Some(RemotePlayerAnim(p.isAttacking, p.isGrounded, p.x, players[username].x)), true)
            && (variant == Current ==> (r[username].flipX <==> p.velocityX < 0.0))
            && (variant == Legacy ==> (r[username].flipX <==> p.isFacingLeft)))
  {
    if username !in players then players
    else
      var e := players[username];
      var stored := e.(hasData := true, serverX := Some(p.x), serverY := Some(p.y));
      if !e.alive then players[username := stored]
      else
        var key := RemotePlayerAnim(p.isAttacking, p.isGrounded, p.x, e.x);
        players[username := stored.(playback := Playback(Some(key), true), flipX := RemoteFlip(variant, p))]
  }

  // --------------------------------------------------------------- monsters

  /** A monster appeared: a fresh render object is stored at its index. */
  function AddMonster(monsters: map<int, Sprite>, index: int, token: nat, m: MonsterState): (r: map<int, Sprite>)
    ensures r.Keys == monsters.Keys + {index}
    ensures r[index] == NewSprite(token, m.x, m.y, NoAnimation())
    ensures forall i :: i in monsters && i != index ==> r[i] == monsters[i]
  {
    monsters[index := NewSprite(token, m.x, m.y, NoAnimation())]
  }

  /** A monster disappeared: its render object is destroyed and deleted if present;
      an absent index is a no-op. */
  function RemoveMonster(monsters: map<int, Sprite>, index: int): (r: map<int, Sprite>)
    ensures index !in r
    ensures forall i :: i != index ==> (i in r <==> i in monsters)
    ensures forall i :: i in r ==> r[i] == monsters[i]
    ensures index !in monsters ==> r == monsters
  {
    if index in monsters then monsters - {index} else monsters
  }

  /** A monster's state changed: ignored when its render object is gone or missing;
      otherwise the position is stored in its data, the playback follows the hit/gait
      rule and the sprite is mirrored exactly when the monster moves right. */
  function ChangeMonster(monsters: map<int, Sprite>, index: int, m: MonsterState): (r: map<int, Sprite>)
    ensures r.Keys == monsters.Keys
    ensures forall i :: i in monsters && i != index ==> r[i] == monsters[i]
    ensures index !in monsters || !monsters[index].alive ==> r == monsters
    ensures index in monsters && monsters[index].alive ==>
      && r[index].hasData && r[index].serverX == Some(m.x) && r[index].serverY == Some(m.y)
      && r[index].playback == MonsterAnim(m.isHit, m.velocityX, monsters[index].playback)
      && (r[index].flipX <==> m.velocityX > 0.0)
      && r[index] == monsters[index].(hasData := true, serverX := r[index].serverX, serverY := r[index].serverY,
                                      playback := r[index].playback, flipX := r[index].flipX)
  {
    if index in monsters && monsters[index].alive then
      var e := monsters[index];
      monsters[index := e.(hasData := true, serverX := Some(m.x), serverY := Some(m.y),
                           playback := MonsterAnim(m.isHit, m.velocityX, e.playback),
                           flipX := MonsterFlip(m.velocityX))]
    else monsters
  }

  /** A monster's vanish animation completed: a live monster switches to the gait
      for its current speed; a destroyed or missing one is left alone. */
  function FinishVanish(monsters: map<int, Sprite>, index: int, velocityX: real): (r: map<int, Sprite>)
    ensures r.Keys == monsters.Keys
    ensures forall i :: i in r && i != index ==> r[i] == monsters[i]
    ensures index !in monsters || !monsters[index].alive ==> r == monsters
    ensures index in monsters && monsters[index].alive ==>
      r[index] == monsters[index].(playback := VanishFinished(monsters[index].playback, velocityX))
  {
    if index in monsters && monsters[index].alive then
      monsters[index := monsters[index].(playback := VanishFinished(monsters[index].playback, velocityX))]
    else monsters
  }

  /** A hit followed by the completion of the vanish it starts leaves a live monster
      playing the gait for its speed at completion, whatever it showed before the hit. */
  lemma HitThenVanishSettlesOnGait(monsters: map<int, Sprite>, index: int, m: MonsterState, velocityX: real)
    requires index in monsters && monsters[index].alive && m.isHit
    ensures var r := FinishVanish(ChangeMonster(monsters, index, m), index, velocityX);
            r[index].playback == Playback(Some(Gait(velocityX)), true)
  {
  }

  /** Removing a monster twice is removing it once. */
  lemma RemoveMonsterIdempotent(monsters: map<int, Sprite>, index: int)
    ensures RemoveMonster(RemoveMonster(monsters, index), index) == RemoveMonster(monsters, index)
  {
  }

  /** Removing a monster that was just added at a free index restores the registry. */
  lemma AddThenRemoveMonster(monsters: map<int, Sprite>, index: int, token: nat, m: MonsterState)
    requires index !in monsters
    ensures RemoveMonster(AddMonster(monsters, index, token, m), index) == monsters
  {
    assert RemoveMonster(AddMonster(monsters, index, token, m), index).Keys == monsters.Keys;
  }

  // ------------------------------------------------------------------- loot

  /** A loot item appeared: a fresh render object is stored at its index, spinning
      if it is a coin, neither tinted nor fading. */
  function AddLoot(loot: map<int, Coin>, index: int, token: nat, l: LootState): (r: map<int, Coin>)
    ensures r.Keys == loot.Keys + {index}
    ensures r[index] == Coin(NewSprite(token, l.x, l.y, r[index].sprite.playback), false, false)
    ensures r[index].sprite.playback == (if l.isCoin then Playback(Some(CoinSpin), true) else NoAnimation())
    ensures forall i :: i in loot && i != index ==> r[i] == loot[i]
  {
    var spin := if l.isCoin then Playback(Some(CoinSpin), true) else NoAnimation();
    loot[index := Coin(NewSprite(token, l.x, l.y, spin), false, false)]
  }

  /** A loot item's state changed: ignored for an index with no render object;
      otherwise the position is stored in its data and the coin is tinted once being
      collected. */
  function ChangeLoot(loot: map<int, Coin>, index: int, l: LootState): (r: map<int, Coin>)
    ensures r.Keys == loot.Keys
    ensures index !in loot ==> r == loot
    ensures forall i :: i in loot && i != index ==> r[i] == loot[i]
    ensures index in loot ==>
      && r[index].sprite == loot[index].sprite.(hasData := true, serverX := Some(l.x), serverY := Some(l.y))
      && r[index].fading == loot[index].fading
      && (r[index].tinted <==> loot[index].tinted || l.isBeingCollected)
  {
    if index !in loot then loot
    else
      var c := loot[index];
      loot[index := c.(sprite := c.sprite.(hasData := true, serverX := Some(l.x), serverY := Some(l.y)),
                       tinted := c.tinted || l.isBeingCollected)]
  }

  /** A coin has no data store until its first change event, so the reconcile pass
      of the next tick deletes a coin that was only added; one change keeps it. */
  lemma FreshLootPrunedUntilChanged(loot: map<int, Coin>, index: int, token: nat, l: LootState, l2: LootState)
    ensures index !in ReconcileLoot(AddLoot(loot, index, token, l))
    ensures index in ReconcileLoot(ChangeLoot(AddLoot(loot, index, token, l), index, l2))
  {
  }

  /** A loot item was removed: its render object stays registered and starts fading
      out; it is deleted only when the fade completes. An absent index is a no-op. */
  function RemoveLoot(loot: map<int, Coin>, index: int): (r: map<int, Coin>)
    ensures r.Keys == loot.Keys
    ensures index !in loot ==> r == loot
    ensures index in loot ==> r[index] == loot[index].(fading := true)
    ensures forall i :: i in loot && i != index ==> r[i] == loot[i]
  {
    if index in loot then loot[index := loot[index].(fading := true)] else loot
  }

  /** The fade-out completion as the scene writes it: it deletes whatever entry is at
      the index, even one added after the removal that started the fade. */
  function FadeFinishedAsWritten(loot: map<int, Coin>, index: int): (r: map<int, Coin>)
    ensures index !in r
    ensures forall i :: i in loot && i != index ==> i in r && r[i] == loot[i]
    ensures r.Keys <= loot.Keys
  {
    loot - {index}
  }

  /** The fade-out completion of the render object `token`: it deletes the entry at the
      index only when that entry is still the object that faded. */
  function FadeFinished(loot: map<int, Coin>, index: int, token: nat): (r: map<int, Coin>)
    ensures index in loot && loot[index].sprite.token == token ==> index !in r
    ensures index in loot && loot[index].sprite.token != token ==> r == loot
    ensures forall i :: i in loot && i != index ==> i in r && r[i] == loot[i]
    ensures r.Keys <= loot.Keys
  {
    if index in loot && loot[index].sprite.token == token then loot - {index} else loot
  }

  /** Removal is deferred: after a removal the coin is still registered and fading,
      and the completion of its own fade deletes it. */
  lemma LootRemovalIsDeferred(loot: map<int, Coin>, index: int)
    requires index in loot
    ensures index in RemoveLoot(loot, index) && RemoveLoot(loot, index)[index].fading
    ensures index !in FadeFinished(RemoveLoot(loot, index), index, loot[index].sprite.token)
    ensures FadeFinished(RemoveLoot(loot, index), index, loot[index].sprite.token).Keys == loot.Keys - {index}
  {
  }

  /** A coin added at a free index, removed and faded out leaves the registry as it was. */
  lemma AddRemoveFadeRestoresLoot(loot: map<int, Coin>, index: int, token: nat, l: LootState)
    requires index !in loot
    ensures FadeFinished(RemoveLoot(AddLoot(loot, index, token, l), index), index, token) == loot
  {
    assert FadeFinished(RemoveLoot(AddLoot(loot, index, token, l), index), index, token).Keys == loot.Keys;
  }

  /** The index-reuse hazard: coin 0 at index 3 is removed and starts fading; a new coin 1
      is added at the same index before the fade completes. The completion as written then
      deletes coin 1, although the authority still holds it; the token check keeps it. */
  lemma FadeAfterIndexReuse()
    ensures var l := LootState(10.0, 20.0, true, false);
            var before := AddLoot(RemoveLoot(AddLoot(map[], 3, 0, l), 3), 3, 1, l);
            && 3 !in FadeFinishedAsWritten(before, 3)
            && 3 in FadeFinished(before, 3, 0) && FadeFinished(before, 3, 0)[3].sprite.token == 1
  {
  }

  /** With the token check, a fade completion can only delete the very coin that faded:
      an entry added at the index under a new token survives the old coin's completion. */
  lemma {:induction false} ReusedIndexSurvivesOldFade(loot: map<int, Coin>, index: int, oldToken: nat, newToken: nat, l: LootState)
    requires oldToken != newToken
    ensures var r := FadeFinished(AddLoot(loot, index, newToken, l), index, oldToken);
            index in r && r[index].sprite.token == newToken && !r[index].fading
  {
  }
}

=== FILE: scene.dfy ===
/** The game scene's per-frame driver: a fixed-timestep accumulator that runs
    whole 1000/60 ms ticks and carries the remainder, the fixed tick itself
    (stamp and send the input payload, step the local avatar, request loot
    collection, reconcile remote entities, pick the avatar's animation), and
    the dispatch of authoritative add / change / remove events to the registries. */
module Scene {
  import opened Optional
  import opened Geometry
  import opened Physics
  import opened Entities
  import opened Animation
  import opened Reconcile
  import opened Registry

  /** Length of one simulation tick, in milliseconds. */
  const FixedTimeStep: real := 1000.0 / 60.0

  /** The keys held during a frame: arrows, space (jump) and the collect key. */
  datatype Keys = Keys(left: bool, right: bool, up: bool, down: bool, space: bool, collect: bool)

  /** The input message sent each tick. `tick` is absent until the first tick;
      `loot` is never set by the scene. */
  datatype InputPayload = InputPayload(
    left: bool, right: bool, up: bool, down: bool, jump: bool, attack: bool, loot: bool,
    tick: Option<nat>, username: string)

  /** Messages handed to the room, in order. */
  datatype Message = Input(payload: InputPayload) | CollectLoot

  /** The local avatar: its physics state, the animation and mirror flag of its sprite,
      and whether that sprite still belongs to the scene (`inScene`). A player-removal
      event for the local name destroys the sprite, but the scene keeps stepping it. */
  datatype Local = Local(body: Avatar, anim: Option<AnimKey>, flipX: bool, inScene: bool)

  /** The scene state the core reads and writes. `local` is the current player (absent
      until it has been added), `joined` says a room handle exists, `isOpen` that its
      connection is open. `localName` is the name that makes an added player the local
      one; `playerName` is the registry name the interpolation skips, which the current
      scene never sets. `nextToken` hands out render-object identities. */
  datatype Scene = Scene(
    variant: Variant,
    local: Option<Local>,
    joined: bool,
    isOpen: bool,
    tick: nat,
    payload: InputPayload,
    localName: string,
    playerName: Option<string>,
    obstacles: seq<Obstacle>,
    players: map<string, Sprite>,
    labels: set<string>,
    monsters: map<int, Sprite>,
    loot: map<int, Coin>,
    nextToken: nat,
    outbox: seq<Message>)

  /** The scene as created: no avatar, no tick yet, no key held, no user name in the
      payload, empty registries and name labels. */
  function Initial(variant: Variant, joined: bool, isOpen: bool, localName: string, playerName: Option<string>): (s: Scene)
    ensures s.local.None? && s.tick == 0
    ensures s.payload == InputPayload(false, false, false, false, false, false, false, None, "")
    ensures s.obstacles == [] && s.players == map[] && s.labels == {} && s.monsters == map[] && s.loot == map[]
    ensures s.outbox == []
    ensures s.variant == variant && s.joined == joined && s.isOpen == isOpen
    ensures s.localName == localName && s.playerName == playerName
  {
    Scene(variant, None, joined, isOpen, 0,
          InputPayload(false, false, false, false, false, false, false, None, ""),
          localName, playerName, [], map[], {}, map[], map[], 0, [])
  }

  /** A fixed tick does work only once the local avatar exists and a room is joined. */
  predicate Active(s: Scene) {
    s.local.Some? && s.joined
  }

  /** The messages a tick hands to the room: the input payload when the connection is
      open, then a collect request whenever the collect key is held (not gated). */
  function TickMessages(isOpen: bool, payload: InputPayload, collect: bool): (m: seq<Message>)
    ensures |m| == (if isOpen then 1 else 0) + (if collect then 1 else 0)
    ensures isOpen ==> m[0] == Input(payload)
    ensures collect ==> m[|m| - 1] == CollectLoot
  {
    (if isOpen then [Input(payload)] else []) + (if collect then [CollectLoot] else [])
  }

  /** The payload fields a tick sets from the keys and the avatar, before the tick
      number is stamped. */
  function KeyPayload(s: Scene, k: Keys): InputPayload
    requires s.local.Some?
  {
    KeyedPayload(LinkOf(s), k)
  }

  /** The command side of a tick: count it, stamp the payload with the new tick number,
      and hand the room the tick's messages. */
  function SendInput(s: Scene, k: Keys): (r: Scene)
    requires s.local.Some?
    ensures r.tick == s.tick + 1
    ensures r.payload == KeyPayload(s, k).(tick := Some(s.tick + 1))
    ensures r.outbox == s.outbox + TickMessages(s.isOpen, r.payload, k.collect)
    ensures r == s.(tick := r.tick, payload := r.payload, outbox := r.outbox)
  {
    var payload := KeyPayload(s, k).(tick := Some(s.tick + 1));
    s.(tick := s.tick + 1, payload := payload, outbox := s.outbox + TickMessages(s.isOpen, payload, k.collect))
  }

  /** The tick stores the avatar's previous y in its render object's data, which creates
      the data store of the entry registered under the local name before the registries
      are reconciled. */
  function StorePrevY(players: map<string, Sprite>, name: string): (r: map<string, Sprite>)
    ensures r.Keys == players.Keys
    ensures name in players ==> r[name] == players[name].(hasData := true)
    ensures forall u :: u in players && u != name ==> r[u] == players[u]
  {
    if name in players then players[name := players[name].(hasData := true)] else players
  }

  /** The simulation side of a tick: step the avatar, choose its animation while its
      sprite is in the scene, reconcile the registries. Nothing else changes. */
  function Simulate(s: Scene, k: Keys): (r: Scene)
    requires s.local.Some?
    ensures r.local.Some? && r.local.value.body.isAttacking == s.local.value.body.isAttacking
    ensures r.local.value.inScene == s.local.value.inScene
    ensures !s.local.value.inScene ==> r.local.value.anim == s.local.value.anim && r.local.value.flipX == s.local.value.flipX
    ensures r == s.(local := r.local, players := r.players, monsters := r.monsters, loot := r.loot)
  {
    var before := s.local.value;
    var body := Step(before.body, Intent(k.left, k.right, k.space), s.obstacles);
    var (key, flip) := LocalAnim(body.isAttacking, body.isGrounded, k.left, k.right, before.flipX);
    var shown := if before.inScene then Local(body, Some(key), flip, true) else before.(body := body);
    s.(local := Some(shown),
       players := ReconcilePlayers(StorePrevY(s.players, s.localName), s.playerName),
       monsters := ReconcileMonsters(s.monsters),
       loot := ReconcileLoot(s.loot))
  }

  /** One fixed tick of the scene: inert until the avatar exists and a room is joined. */
  function FixedTick(s: Scene, k: Keys): (r: Scene)
    ensures !Active(s) ==> r == s
    ensures Active(s) ==>
      && r.tick == s.tick + 1
      && r.payload == KeyPayload(s, k).(tick := Some(r.tick))
      && r.outbox == s.outbox + TickMessages(s.isOpen, r.payload, k.collect)
      && r.local.Some?
      && r.local.value.body.isAttacking == s.local.value.body.isAttacking
    ensures r.variant == s.variant && r.joined == s.joined && r.isOpen == s.isOpen
    ensures r.obstacles == s.obstacles && r.labels == s.labels && r.nextToken == s.nextToken
    ensures r.localName == s.localName && r.playerName == s.playerName
  {
    if !Active(s) then s else Simulate(SendInput(s, k), k)
  }

  /** What an active tick does besides counting and sending: the avatar takes one
      physics step with the held keys against the obstacles, its animation follows the
      local priority chain on the stepped state, and every registry is reconciled. */
  lemma TickSimulates(s: Scene, k: Keys)
    requires Active(s)
    ensures var r := FixedTick(s, k);
      && r.local.Some?
      && r.local.value.body == Step(s.local.value.body, Intent(k.left, k.right, k.space), s.obstacles)
      && r.local.value.inScene == s.local.value.inScene
      && (s.local.value.inScene ==>
            (r.local.value.anim, r.local.value.flipX)
              == (var b := r.local.value.body;
                  var (key, flip) := LocalAnim(b.isAttacking, b.isGrounded, k.left, k.right, s.local.value.flipX);
                  (Some(key), flip)))
      && (!s.local.value.inScene ==> r.local.value.anim == s.local.value.anim && r.local.value.flipX == s.local.value.flipX)
      && r.players == ReconcilePlayers(StorePrevY(s.players, s.localName), s.playerName)
      && r.monsters == ReconcileMonsters(s.monsters)
      && r.loot == ReconcileLoot(s.loot)
  {
  }

  /** A remote player's render object gets its data store only from its first change
      event, so a player that joins and is reconciled before any change is dropped from
      the registry; one whose change arrived first stays and is blended. The local
      player's entry always has a store by then and stays. */
  lemma RemotePlayerNeedsChangeBeforeTick(s: Scene, k: Keys, u: string, x: real, y: real, p: PlayerState)
    requires Active(s) && u != s.localName && s.playerName != Some(u)
    ensures u !in FixedTick(Apply(s, PlayerAdded(u, x, y)), k).players
    ensures u in FixedTick(Apply(Apply(s, PlayerAdded(u, x, y)), PlayerChanged(u, p)), k).players
    ensures s.localName in s.players && s.players[s.localName].alive ==> s.localName in FixedTick(s, k).players
  {
    var added := Apply(s, PlayerAdded(u, x, y));
    TickSimulates(added, k);
    var changed := Apply(added, PlayerChanged(u, p));
    TickSimulates(changed, k);
    TickSimulates(s, k);
  }

  /** `n` fixed ticks in a row with the same keys held. */
  function Run(s: Scene, k: Keys, n: nat): Scene {
    if n == 0 then s else FixedTick(Run(s, k, n - 1), k)
  }

  /** The number of whole ticks in an accumulated time: none for anything shorter
      than one tick, including a negative total. */
  function WholeSteps(t: real): nat {
    if t < FixedTimeStep then 0 else (t / FixedTimeStep).Floor
  }

  /** n active ticks in a row keep the account of what was sent: `r` is the scene
      after the n ticks. */
  lemma RunSends(s: Scene, k: Keys, n: nat, r: Scene)
    requires Active(s) && r == Run(s, k, n)
    ensures SentSoFar(s, k, r, n)
  {
    RunFollowsLink(s, k, n, r);
    LinkRunSends(s, k, n, r);
  }

  /** The per-frame update: nothing before the local avatar exists; otherwise the
      frame delta is accumulated, a fixed tick runs for every whole step in the
      total, and the remainder is carried to the next frame. */
  method Update(s: Scene, elapsed: real, delta: real, k: Keys) returns (r: Scene, remaining: real, ticks: nat)
    ensures s.local.None? ==> r == s && remaining == elapsed && ticks == 0
    ensures s.local.Some? ==>
      && ticks == WholeSteps(elapsed + delta)
      && remaining == elapsed + delta - ticks as real * FixedTimeStep
      && r == Run(s, k, ticks)
    ensures s.local.Some? && elapsed + delta >= 0.0 ==> 0.0 <= remaining < FixedTimeStep
    ensures Active(s) ==> SentSoFar(s, k, r, ticks)
  {
    if s.local.None? {
      return s, elapsed, 0;
    }
    r, remaining, ticks := s, elapsed + delta, 0;
    while remaining >= FixedTimeStep
      invariant remaining == elapsed + delta - ticks as real * FixedTimeStep
      invariant ticks > 0 ==> remaining >= 0.0
      invariant r == Run(s, k, ticks)
      decreases (remaining / FixedTimeStep).Floor
    {
      remaining := remaining - FixedTimeStep;
      r := FixedTick(r, k);
      ticks := ticks + 1;
    }
    if Active(s) {
      RunSends(s, k, ticks, r);
    }
  }

  /** Without a room, ticks change nothing. */
  lemma {:induction false} RunWithoutRoomIsInert(s: Scene, k: Keys, n: nat)
    requires !s.joined
    ensures Run(s, k, n) == s
  {
    if n > 0 {
      RunWithoutRoomIsInert(s, k, n - 1);
    }
  }

  /** The room-facing part of n active ticks from `s0` leading to `r`: the connection
      and the attack flag are as they were, the tick counter advanced by n, the payload
      holds the keys and the last tick's number, and the outbox grew by what ticks
      s0.tick + 1 .. s0.tick + n sent. */
  predicate SentSoFar(s0: Scene, k: Keys, r: Scene, n: nat)
    requires Active(s0)
  {
    && Active(r) && r.isOpen == s0.isOpen
    && r.local.value.body.isAttacking == s0.local.value.body.isAttacking
    && r.tick == s0.tick + n
    && KeyPayload(r, k) == KeyPayload(s0, k).(tick := r.payload.tick)
    && r.outbox == s0.outbox + Sent(s0.isOpen, KeyPayload(s0, k), k.collect, s0.tick + 1, n)
  }

  /** What n ticks numbered from, from + 1, ... hand to the room, in order: per tick,
      the payload stamped with that tick's number (connection open), then a collect
      request (key held). */
  function Sent(isOpen: bool, base: InputPayload, collect: bool, from: nat, n: nat): seq<Message> {
    if n == 0 then []
    else Sent(isOpen, base, collect, from, n - 1) + TickMessages(isOpen, base.(tick := Some(from + n - 1)), collect)
  }

  /** The part of the scene a tick's sending reads and writes: the connection flag, the
      avatar's attack flag, the tick counter, the payload and what was sent. */
  datatype Link = Link(isOpen: bool, attacking: bool, tick: nat, payload: InputPayload, outbox: seq<Message>)

  function LinkOf(s: Scene): Link
    requires s.local.Some?
  {
    Link(s.isOpen, s.local.value.body.isAttacking, s.tick, s.payload, s.outbox)
  }

  /** The payload with the held keys and the attack flag, before the tick number is stamped. */
  function KeyedPayload(l: Link, k: Keys): InputPayload {
    l.payload.(left := k.left, right := k.right, up := k.up, down := k.down, jump := k.space, attack := l.attacking)
  }

  /** What one active tick does to the link. */
  function LinkTick(l: Link, k: Keys): Link {
    var payload := KeyedPayload(l, k).(tick := Some(l.tick + 1));
    l.(tick := l.tick + 1, payload := payload, outbox := l.outbox + TickMessages(l.isOpen, payload, k.collect))
  }

  function LinkRun(l: Link, k: Keys, n: nat): Link {
    if n == 0 then l else LinkTick(LinkRun(l, k, n - 1), k)
  }

  /** An active tick acts on the room-facing part of the scene as one link step, and
      leaves the scene active. */
  lemma FixedTickFollowsLink(s: Scene, k: Keys)
    requires Active(s)
    ensures Active(FixedTick(s, k)) && LinkOf(FixedTick(s, k)) == LinkTick(LinkOf(s), k)
  {
  }

  /** n active ticks act on the room-facing part of the scene as n link steps. */
  lemma {:induction false} RunFollowsLink(s: Scene, k: Keys, n: nat, r: Scene)
    requires Active(s) && r == Run(s, k, n)
    ensures Active(r) && LinkOf(r) == LinkRun(LinkOf(s), k, n)
  {
    if n > 0 {
      var prev := Run(s, k, n - 1);
      RunFollowsLink(s, k, n - 1, prev);
      FixedTickFollowsLink(prev, k);
    }
  }

  /** n link steps count n ticks, keep the connection and attack flags, and leave the
      payload holding the keys and the last tick's number. */
  lemma {:induction false} LinkCounts(l: Link, k: Keys, n: nat)
    ensures var r := LinkRun(l, k, n);
      && r.isOpen == l.isOpen && r.attacking == l.attacking && r.tick == l.tick + n
      && KeyedPayload(r, k) == KeyedPayload(l, k).(tick := r.payload.tick)
      && (n > 0 ==> r.payload.tick == Some(l.tick + n))
  {
    if n > 0 {
      LinkCounts(l, k, n - 1);
    }
  }

  /** n link steps append the messages of each tick, in order. */
  lemma {:induction false} LinkOutbox(l: Link, k: Keys, n: nat)
    ensures LinkRun(l, k, n).outbox == l.outbox + Sent(l.isOpen, KeyedPayload(l, k), k.collect, l.tick + 1, n)
  {
    if n > 0 {
      var prev := LinkRun(l, k, n - 1);
      var stamped := KeyedPayload(l, k).(tick := Some(l.tick + n));
      LinkOutbox(l, k, n - 1);
      assert prev.isOpen == l.isOpen && KeyedPayload(prev, k).(tick := Some(prev.tick + 1)) == stamped by {
        LinkCounts(l, k, n - 1);
      }
      SentExtends(l.isOpen, KeyedPayload(l, k), k.collect, l.tick + 1, n - 1, l.outbox, prev.outbox, LinkRun(l, k, n).outbox);
    }
  }

  /** A scene whose room-facing part went through n link steps from an active `s0`
      has sent what n ticks send. */
  lemma LinkRunSends(s0: Scene, k: Keys, n: nat, r: Scene)
    requires Active(s0) && Active(r) && LinkOf(r) == LinkRun(LinkOf(s0), k, n)
    ensures SentSoFar(s0, k, r, n)
  {
    LinkCounts(LinkOf(s0), k, n);
    LinkOutbox(LinkOf(s0), k, n);
  }

  /** Appending the messages of tick from + m to what ticks from .. from + m - 1 sent
      gives what ticks from .. from + m sent. */
  lemma SentExtends(isOpen: bool, base: InputPayload, collect: bool, from: nat, m: nat,
                    out0: seq<Message>, before: seq<Message>, after: seq<Message>)
    requires before == out0 + Sent(isOpen, base, collect, from, m)
    requires after == before + TickMessages(isOpen, base.(tick := Some(from + m)), collect)
    ensures after == out0 + Sent(isOpen, base, collect, from, m + 1)
  {
    assert Sent(isOpen, base, collect, from, m + 1)
        == Sent(isOpen, base, collect, from, m) + TickMessages(isOpen, base.(tick := Some(from + m)), collect);
  }

  /** With the connection closed, a run sends no input message: only collect requests. */
  lemma {:induction false} ClosedConnectionSendsOnlyCollect(base: InputPayload, collect: bool, from: nat, n: nat)
    ensures forall m :: m in Sent(false, base, collect, from, n) ==> m == CollectLoot
  {
    if n > 0 {
      ClosedConnectionSendsOnlyCollect(base, collect, from, n - 1);
    }
  }

  // ---------------------------------------------------------------- events

  /** Add / change / remove events of the authoritative state, plus the two engine
      callbacks that complete a monster's vanish and a coin's fade-out. */
  datatype Event =
    | ObstacleAdded(o: Obstacle)
    | PlayerAdded(username: string, x: real, y: real)
    | PlayerChanged(username: string, p: PlayerState)
    | PlayerRemoved(username: string)
    | MonsterAdded(index: int, m: MonsterState)
    | MonsterChanged(index: int, m: MonsterState)
    | MonsterRemoved(index: int)
    | VanishCompleted(index: int, velocityX: real)
    | LootAdded(index: int, l: LootState)
    | LootChanged(index: int, l: LootState)
    | LootRemoved(index: int)
    | FadeCompleted(index: int, token: nat)

  /** Monster and loot events, which only the legacy scene handles. */
  predicate LegacyOnly(e: Event) {
    e.MonsterAdded? || e.MonsterChanged? || e.MonsterRemoved? || e.VanishCompleted?
    || e.LootAdded? || e.LootChanged? || e.LootRemoved? || e.FadeCompleted?
  }

  /** A fresh local avatar at (x, y): zero velocity, not grounded, not attacking. */
  function Spawn(x: real, y: real): Local {
    Local(Avatar(x, y, 0.0, y, false, false), None, false, true)
  }

  /** The local sprite is destroyed. Its data store goes with it, and the engine
      creates an empty one on the next read, so the tick then reads no velocity
      (taken as 0) and no grounded or attacking flag (taken as false). The rendered
      position, animation and mirror flag stay as they were. */
  function Destroyed(l: Local): (r: Local)
    ensures !r.inScene
    ensures r.body.velocityY == 0.0 && !r.body.isGrounded && !r.body.isAttacking
    ensures r.body.x == l.body.x && r.body.y == l.body.y && r.body.prevY == l.body.prevY
    ensures r.anim == l.anim && r.flipX == l.flipX
  {
    l.(body := l.body.(velocityY := 0.0, isGrounded := false, isAttacking := false), inScene := false)
  }

  /** Handle one event between frames. */
  function Apply(s: Scene, e: Event): (r: Scene)
    ensures r.tick == s.tick && r.outbox == s.outbox && r.payload.tick == s.payload.tick
    ensures r.variant == s.variant && r.joined == s.joined && r.isOpen == s.isOpen
    ensures s.variant == Current && LegacyOnly(e) ==> r == s
    ensures e.PlayerAdded? && e.username == s.localName ==> r.local == Some(Spawn(e.x, e.y))
    ensures e.PlayerRemoved? && e.username == s.localName && s.localName in s.players && s.local.Some? ==>
              r.local == Some(Destroyed(s.local.value))
    ensures (!(e.PlayerAdded? && e.username == s.localName)
             && !(e.PlayerRemoved? && e.username == s.localName && s.localName in s.players)) ==> r.local == s.local
    ensures !e.ObstacleAdded? ==> r.obstacles == s.obstacles
    ensures e.ObstacleAdded? ==> r.obstacles == s.obstacles + [e.o]
  {
    match e
    case ObstacleAdded(o) => s.(obstacles := s.obstacles + [o])
    case PlayerAdded(u, x, y) =>
      var (players, labels) := AddPlayer(s.variant, s.players, s.labels, u, s.nextToken, x, y);
      var s' := s.(players := players, labels := labels, nextToken := s.nextToken + 1);
      if u != s.localName then s'
      else if s.variant == Current then s'.(local := Some(Spawn(x, y)), payload := s.payload.(username := u))
      else s'.(local := Some(Spawn(x, y)))
    case PlayerChanged(u, p) =>
      if u == s.localName then s
      else s.(players := ChangeRemotePlayer(s.variant, s.players, u, p))
    case PlayerRemoved(u) =>
      var (players, labels) := RemovePlayer(s.players, s.labels, u);
      var s' := s.(players := players, labels := labels);
      if u == s.localName && u in s.players && s.local.Some? then s'.(local := Some(Destroyed(s.local.value)))
      else s'
    case MonsterAdded(i, m) =>
      if s.variant == Current then s
      else s.(monsters := AddMonster(s.monsters, i, s.nextToken, m), nextToken := s.nextToken + 1)
    case MonsterChanged(i, m) =>
      if s.variant == Current then s else s.(monsters := ChangeMonster(s.monsters, i, m))
    case MonsterRemoved(i) =>
      if s.variant == Current then s else s.(monsters := RemoveMonster(s.monsters, i))
    case VanishCompleted(i, v) =>
      if s.variant == Current then s else s.(monsters := FinishVanish(s.monsters, i, v))
    case LootAdded(i, l) =>
      if s.variant == Current then s
      else s.(loot := AddLoot(s.loot, i, s.nextToken, l), nextToken := s.nextToken + 1)
    case LootChanged(i, l) =>
      if s.variant == Current then s else s.(loot := ChangeLoot(s.loot, i, l))
    case LootRemoved(i) =>
      if s.variant == Current then s else s.(loot := RemoveLoot(s.loot, i))
    case FadeCompleted(i, t) =>
      if s.variant == Current then s else s.(loot := FadeFinished(s.loot, i, t))
  }

  /** Every registered render object still belongs to the scene: each handler that
      destroys one also deletes its entry, so a stored entry is never a destroyed one. */
  predicate StoredAlive(s: Scene) {
    PlayersAlive(s.players) && MonstersAlive(s.monsters) && LootAlive(s.loot)
  }

  predicate PlayersAlive(players: map<string, Sprite>) {
    forall u :: u in players ==> players[u].alive
  }

  predicate MonstersAlive(monsters: map<int, Sprite>) {
    forall i :: i in monsters ==> monsters[i].alive
  }

  predicate LootAlive(loot: map<int, Coin>) {
    forall i :: i in loot ==> loot[i].sprite.alive
  }

  /** The scene starts with every stored entry alive. */
  lemma InitialStoredAlive(variant: Variant, joined: bool, isOpen: bool, localName: string, playerName: Option<string>)
    ensures StoredAlive(Initial(variant, joined, isOpen, localName, playerName))
  {
  }

  /** No event registers a destroyed render object: adding stores a fresh one, a
      change keeps the entry's flag, and removal deletes. */
  lemma ApplyKeepsStoredAlive(s: Scene, e: Event)
    requires StoredAlive(s)
    ensures StoredAlive(Apply(s, e))
  {
    if e.ObstacleAdded? || e.PlayerAdded? || e.PlayerChanged? || e.PlayerRemoved? {
      PlayerEventKeepsStoredAlive(s, e);
    } else if e.MonsterAdded? || e.MonsterChanged? || e.MonsterRemoved? || e.VanishCompleted? {
      MonsterEventKeepsStoredAlive(s, e);
    } else {
      LootEventKeepsStoredAlive(s, e);
    }
  }

  /** Obstacle and player events touch at most the player registry, and keep it alive. */
  lemma PlayerEventKeepsStoredAlive(s: Scene, e: Event)
    requires StoredAlive(s)
    requires e.ObstacleAdded? || e.PlayerAdded? || e.PlayerChanged? || e.PlayerRemoved?
    ensures StoredAlive(Apply(s, e))
  {
    var r := Apply(s, e);
    assert r.monsters == s.monsters && r.loot == s.loot;
    if e.PlayerChanged? && e.username != s.localName {
      assert r.players == ChangeRemotePlayer(s.variant, s.players, e.username, e.p);
    }
  }

  /** Monster events touch only the monster registry, and keep it alive. */
  lemma MonsterEventKeepsStoredAlive(s: Scene, e: Event)
    requires StoredAlive(s)
    requires e.MonsterAdded? || e.MonsterChanged? || e.MonsterRemoved? || e.VanishCompleted?
    ensures StoredAlive(Apply(s, e))
  {
    var r := Apply(s, e);
    assert r.players == s.players && r.loot == s.loot;
  }

  /** Loot events touch only the loot registry, and keep it alive. */
  lemma LootEventKeepsStoredAlive(s: Scene, e: Event)
    requires StoredAlive(s)
    requires e.LootAdded? || e.LootChanged? || e.LootRemoved? || e.FadeCompleted?
    ensures StoredAlive(Apply(s, e))
  {
    var r := Apply(s, e);
    assert r.players == s.players && r.monsters == s.monsters;
  }

  /** A tick only blends and prunes, so it keeps every stored entry alive. */
  lemma FixedTickKeepsStoredAlive(s: Scene, k: Keys)
    requires StoredAlive(s)
    ensures StoredAlive(FixedTick(s, k))
  {
    if Active(s) {
      TickSimulates(s, k);
    }
  }

  /** Removal is idempotent at the scene level, and removing an identity that has no
      representation leaves the scene unchanged. */
  lemma RemoveEventsIdempotent(s: Scene, u: string, i: int)
    ensures Apply(Apply(s, PlayerRemoved(u)), PlayerRemoved(u)) == Apply(s, PlayerRemoved(u))
    ensures Apply(Apply(s, MonsterRemoved(i)), MonsterRemoved(i)) == Apply(s, MonsterRemoved(i))
    ensures u !in s.players && u !in s.labels ==> Apply(s, PlayerRemoved(u)) == s
    ensures i !in s.monsters ==> Apply(s, MonsterRemoved(i)) == s
  {
  }

  /** In the legacy scene, a coin that is removed stays registered until its fade
      completes, and its completion removes exactly its index. */
  lemma LootFadeLifecycle(s: Scene, i: int)
    requires s.variant == Legacy && i in s.loot
    ensures var faded := Apply(s, LootRemoved(i));
            && i in faded.loot && faded.loot[i].fading
            && Apply(faded, FadeCompleted(i, s.loot[i].sprite.token)).loot.Keys == s.loot.Keys - {i}
  {
    LootRemovalIsDeferred(s.loot, i);
  }

  /** Once the local player's entry is removed, its sprite is destroyed but the scene
      keeps stepping it: the next tick falls from rest with no grounded or attacking
      flag, the animation and mirror flag are frozen, and the sprite never returns to
      the scene by ticking. */
  lemma LocalRemovalFreezesAnimation(s: Scene, k: Keys)
    requires Active(s) && s.localName in s.players
    ensures var d := Apply(s, PlayerRemoved(s.localName));
            var r := FixedTick(d, k);
            && s.localName !in d.players
            && r.local.Some? && !r.local.value.inScene
            && r.local.value.anim == s.local.value.anim && r.local.value.flipX == s.local.value.flipX
            && r.local.value.body == Step(s.local.value.body.(velocityY := 0.0, isGrounded := false, isAttacking := false),
                                          Intent(k.left, k.right, k.space), s.obstacles)
  {
    var d := Apply(s, PlayerRemoved(s.localName));
    TickSimulates(d, k);
  }

  /** A loot change for an index with no render object is ignored. */
  lemma LootChangeForMissingIndexIgnored(s: Scene, i: int, l: LootState)
    requires i !in s.loot
    ensures Apply(s, LootChanged(i, l)) == s
  {
  }
}
